=== FILE: README.md ===
# Acute rig session control, modelled in Dafny

The acute rig runs an electrophysiology session across three programs:

- the **session controller** (`acute_rig_control_gui.py`), a GUI that opens a block and runs its trials on a worker thread;
- the **recording controller** (Open Ephys), which is reached over a ZeroMQ request/reply socket and asked whether it is acquiring or recording;
- the **trial executor** on a Raspberry Pi (`rig_state_machine.py`), a request/reply server that plays one stimulus per `trial` request.

This project models the sequential logic that holds these together and proves properties of it:

- the space-separated command-line protocol and its two encoders;
- the guarded recording lifecycle of the recording client;
- the executor's dispatch loop;
- the block and search schedulers.

Modules, one per file:

- `Outcomes` (`outcomes.dfy`): `Option` and `Result`.
- `Text` (`text.dfy`): Python's `str.split(' ')`, `' '.join`, the tail of `os.path.split`, `str(int)` and `int(float(s))`.
- `CommandLine` (`command_line.dfy`):
  - `parse_command`;
  - the trial line `trial stim_file <path> number <n>`;
  - the `StartRecord k=v …` line built from recording options.
- `Rig` (`rig.dfy`): a request/reply exchange with a remote peer.
  - A peer is a step function from its state and a command to its next state and its reply. No reply (`None`) is a receive timeout, which raises.
  - An operation returns a `Run`: the peer's state afterwards, the exchanges that got replies, and its result or the timeout.
  - `Follows(r, script)` says the run sent exactly `script`, or a prefix of it ending in the command that timed out.
- `Recorder` (`recorder.dfy`): `OpenEphysEvents`.
  - Every operation queries the recorder and decides from the answers what to send.
  - For each operation, its commands are written as a *script*: a function of the decoded answers in its transcript. The operation is proved to keep to its script whatever the recorder answers.
- `ReferenceRecorder` (`reference_recorder.dfy`): a recorder that answers truthfully and moves between `Idle`, `Acquiring` and `Recording` as commanded. Lemmas state what each operation achieves against it.
- `Server` (`server.dfy`): the executor.
  - Parsing, the dispatch table, `run_trial`, `init_board`, the reply format and the server loop.
  - Hardware actions and pauses are recorded as a list of effects.
- `Executor` (`executor.dfy`): `RigStateMachineConnection.start_trial`, and its end-to-end effect on a running executor.
- `TrialOrder` (`trial_order.dfy`): `np.tile(np.arange(n), reps)` and numpy's in-place shuffle, with the random draws as an oracle.
- `Scheduler` (`scheduler.dfy`):
  - the recording part of `start_block`;
  - `block_thread_task` and `search_thread_task`;
  - the stop button and the repeat toggle.
  - What the worker thread reads at the top of each iteration comes from an oracle `ticks`: the run flag, the interval mode, the uniform draw, the repeat toggle and the stimulus draw.

Behaviour as the code fixes it:

- **End status.** Both workers always end with the status `Block Finished` / `Search Finished`. That includes runs the stop button cut short; no "stopped" status exists.
- **`init`.** The executor's `init` request cannot answer `ok` as written: it ends the server (see Findings). The server loop is modelled as written; the corrected dispatch is stated beside it.
- **Parse errors.** A line with an odd number of spaces fails `parse_command`'s assertion. This is not caught on the executor, so the process ends and sends no reply.
- **Repeat count.** A repeat count of zero gives an empty block. A negative count makes `np.tile` raise when there is at least one stimulus. With no stimuli the tiled order is empty whatever the count.

## Model

| member | source | states |
|---|---|---|
| Text.Split | acute_rig_control_gui.py:35 | `s.split(' ')` has one more part than `s` has separators. No part contains the separator. The first part is the text up to the first separator. |
| Text.SplitJoin | acute_rig_control_gui.py:35 | Splitting a joined list gives the list back when no part contains the separator. |
| Text.JoinSplit | acute_rig_control_gui.py:35 | Joining the parts of a split gives the text back. |
| Text.BasenameIsLastComponent | acute_rig_control_gui.py:584 | The file name from `os.path.split` is the longest `/`-free suffix of the path. |
| Text.BasenameAfterDirectory | acute_rig_control_gui.py:585 | The file name of a directory path joined with a plain name is that name. |
| Text.ParseNumber | rig_state_machine.py:94 | A value read by `int(float(s))` has the sign of its text: text starting with `-` reads as a value no greater than 0 (truncation toward zero), any other text as a value no less than 0. Empty text does not read. |
| Text.IntToStringParses | rig_state_machine.py:94 | `int(float(str(n))) == n` for every integer of magnitude at most 2^53, the integers a double holds exactly: the executor reads back the trial number the client wrote. |
| CommandLine.ParseCommand | acute_rig_control_gui.py:28-39 | Parsing fails its assertion exactly when the line has an odd number of spaces, i.e. an even token count. On success the verb is the text before the first space and contains no space. |
| CommandLine.ParsedParameters | acute_rig_control_gui.py:37-39 | On success the parameter names are exactly the odd-position tokens. A name keeps the value after its last occurrence. |
| CommandLine.PairsKeys | acute_rig_control_gui.py:37 | The dictionary built from name/value tokens has exactly the names as keys. |
| CommandLine.PairsLastWins | acute_rig_control_gui.py:37 | In the dictionary comprehension a repeated name maps to the value of its last pair. |
| CommandLine.TrialLineRoundTrip | acute_rig_control_gui.py:204-207 | For a path without spaces and any integer, the trial line parses to verb `trial` with exactly `stim_file` = path and `number` = `str(n)`. |
| CommandLine.TrialLineSpaces | acute_rig_control_gui.py:205 | The trial line has four spaces more than the path. |
| CommandLine.TrialLineOddSpacesRejected | acute_rig_control_gui.py:205 | A path with an odd number of spaces makes the trial line unparsable. |
| CommandLine.TrialLineTwoSpacesMisparsed | acute_rig_control_gui.py:205 | A path with two spaces is accepted but misparsed. The stimulus becomes the path's first segment, and the other two segments form a stray parameter. |
| CommandLine.SetOptionsMembers | acute_rig_control_gui.py:105-107 | An option appears as `name=value` exactly when its value is not `None`. |
| CommandLine.RecordLineRoundTrip | acute_rig_control_gui.py:105-108 | For options whose names and values contain no space or `=`, decoding the `StartRecord` line recovers exactly the set options, in order. |
| CommandLine.RecordLineVerb | acute_rig_control_gui.py:108 | The start-record line always begins with `StartRecord`. |
| CommandLine.DefaultRecordLine | acute_rig_control_gui.py:84-87 | With the default options the line is `StartRecord CreateNewDir=0`. |
| CommandLine.BlockRecordLine | acute_rig_control_gui.py:564 | With a block's options the line is `StartRecord CreateNewDir=0 RecDir=<block path>`. |
| Rig.Send | acute_rig_control_gui.py:163-167 | `send_command` sends one command. Its transcript holds that exchange when a reply came, and is empty on a timeout. It times out exactly when the peer does not reply, so never against a peer that always replies. |
| Rig.ConverseSends | acute_rig_control_gui.py:163-167 | A conversation with the peer sends its commands in order. It sends all of them when every one gets a reply, and otherwise a prefix ending in the one that got none. |
| Rig.ConverseFeed | acute_rig_control_gui.py:163-167 | A completed conversation leaves the peer in the state all its commands lead to. One that stopped leaves it where the commands up to the unanswered one lead, and the peer, in the state the earlier commands left, gives no reply to that one. |
| Rig.ConverseReply | acute_rig_control_gui.py:163-167 | Exchange `i` of a conversation is command `i` with the peer's reply in the state commands `0` to `i-1` left it in. |
| Rig.ConverseAppend | acute_rig_control_gui.py:163-167 | Talking through two command lists in turn, the first completing, is talking through their concatenation. |
| Rig.SendReplays | acute_rig_control_gui.py:163-167 | One `send_command` is the peer's conversation on its single command. |
| Rig.ThenReplays | acute_rig_control_gui.py:163-167 | An operation run after one that completed, each replaying the peer from where it started, together replay the peer on all the commands sent. |
| Rig.ReplaysMeans | acute_rig_control_gui.py:163-167 | For a run that replays the peer, every logged reply is the peer's reply in the state the earlier commands left it in. The peer ends in the state all the commands sent lead to, and a timeout is the peer giving no reply to the last one. |
| Rig.FeedFollows | acute_rig_control_gui.py:163-167 | A peer that each command in turn moves from one given state to the next ends, after all of them, in the last of those states. |
| Recorder.Decode | acute_rig_control_gui.py:161 | The reply `1` is true and `0` is false (both directions). Anything else is unknown. |
| Recorder.Query | acute_rig_control_gui.py:156-161 | `query_status` sends one query. It times out exactly when the recorder does not reply in its current state, and otherwise returns that reply decoded. Every reply it acts on is the recorder's own reply in the state the earlier commands left it in, and the recorder's end state and any timeout come from that same replay (`Rig.Replays`). A recorder that always replies lets it finish. |
| Recorder.StartAcq | acute_rig_control_gui.py:60-68 | `start_acq` keeps to its script: `StartAcquisition` and a second query only when the first query is not true. The printed outcome is read off the two answers. Every reply it acts on is the recorder's own reply in the state the earlier commands left it in, and the recorder's end state and any timeout come from that same replay (`Rig.Replays`). A recorder that always replies lets it finish. |
| Recorder.StopAcqRest | acute_rig_control_gui.py:74-82 | After a not-recording answer, `StopAcquisition` is sent only when the acquiring query is true, and is confirmed by a second query. Every reply it acts on is the recorder's own reply in the state the earlier commands left it in, and the recorder's end state and any timeout come from that same replay (`Rig.Replays`). A recorder that always replies lets it finish. |
| Recorder.StopAcq | acute_rig_control_gui.py:70-82 | `stop_acq` keeps to its script. It refuses while recording, reports when not acquiring, and otherwise stops and confirms. Each outcome is stated as an if-and-only-if on the answers. Every reply it acts on is the recorder's own reply in the state the earlier commands left it in, and the recorder's end state and any timeout come from that same replay (`Rig.Replays`). A recorder that always replies lets it finish. |
| Recorder.StopRec | acute_rig_control_gui.py:118-126 | `stop_rec` sends `StopRecord` and a confirming query only when the recording query is true. Its outcome is stated as an if-and-only-if on the answers. Every reply it acts on is the recorder's own reply in the state the earlier commands left it in, and the recorder's end state and any timeout come from that same replay (`Rig.Replays`). A recorder that always replies lets it finish. |
| Recorder.GetRecPath | acute_rig_control_gui.py:153-154 | `get_rec_path` is one `GetRecordingPath` exchange. The path returned is the recorder's reply to it, and it times out exactly when there is none. Every reply it acts on is the recorder's own reply in the state the earlier commands left it in, and the recorder's end state and any timeout come from that same replay (`Rig.Replays`). A recorder that always replies lets it finish. |
| Recorder.Begin | acute_rig_control_gui.py:104-113 | The start-record line is followed by a recording query. The path is requested, and the result is true, exactly when that query says recording. Every reply it acts on is the recorder's own reply in the state the earlier commands left it in, and the recorder's end state and any timeout come from that same replay (`Rig.Replays`). A recorder that always replies lets it finish. |
| Recorder.AcqConfirmed | acute_rig_control_gui.py:96-99 | After `start_acq` inside `start_rec`, recording starts only when the recorder now says it is acquiring. Every reply it acts on is the recorder's own reply in the state the earlier commands left it in, and the recorder's end state and any timeout come from that same replay (`Rig.Replays`). A recorder that always replies lets it finish. |
| Recorder.AfterAcq | acute_rig_control_gui.py:96-113 | When the recorder did not say it was acquiring, `start_acq`'s script runs first, and recording starts only when the recorder then says it is acquiring. The result is true exactly when the path was requested, and then the recording was confirmed after the start-record line. Every reply it acts on is the recorder's own reply in the state the earlier commands left it in, and the recorder's end state and any timeout come from that same replay (`Rig.Replays`). A recorder that always replies lets it finish. |
| Recorder.StartRecUnlessRecording | acute_rig_control_gui.py:94-113 | When the recorder did not say it was recording, the next command is the acquisition query. If it says acquiring, the start-record line follows at once; otherwise acquisition is started and confirmed first. The result is true exactly when the path was requested, and then the recording was confirmed after the line. Every reply it acts on is the recorder's own reply in the state the earlier commands left it in, and the recorder's end state and any timeout come from that same replay (`Rig.Replays`). A recorder that always replies lets it finish. |
| Recorder.StartRec | acute_rig_control_gui.py:84-116 | `start_rec` keeps to its script with the line for exactly the set options. It returns true only if the run ends with a recording query answered true after the line, followed by the path request. It returns false, after one query, whenever the recorder says at once it is recording. Every reply it acts on is the recorder's own reply in the state the earlier commands left it in, and the recorder's end state and any timeout come from that same replay (`Rig.Replays`). A recorder that always replies lets it finish. |
| Recorder.BreakRest | acute_rig_control_gui.py:133-151 | After `StopRecord`, the bare `StartRecord` is sent only when the confirming query no longer says recording. Every reply it acts on is the recorder's own reply in the state the earlier commands left it in, and the recorder's end state and any timeout come from that same replay (`Rig.Replays`). A recorder that always replies lets it finish. |
| Recorder.BreakRec | acute_rig_control_gui.py:128-151 | `break_rec` keeps to its script. Nothing is broken unless the first query says recording. The recording counts as restarted exactly when it stopped and the last query says recording. Every reply it acts on is the recorder's own reply in the state the earlier commands left it in, and the recorder's end state and any timeout come from that same replay (`Rig.Replays`). A recorder that always replies lets it finish. |
| Recorder.Close | acute_rig_control_gui.py:169-172 | `close` runs `stop_rec`'s script and then `stop_acq`'s, on the answers that follow. Every reply it acts on is the recorder's own reply in the state the earlier commands left it in, and the recorder's end state and any timeout come from that same replay (`Rig.Replays`). A recorder that always replies lets it finish. |
| Recorder.StartAcqGuard | acute_rig_control_gui.py:61-64 | `StartAcquisition` is in the script exactly when the acquiring query is not true. An unknown answer counts as not acquiring. |
| Recorder.StopAcqGuard | acute_rig_control_gui.py:71-78 | `StopAcquisition` is in the script exactly when the recording query is not true and the acquiring query is. |
| Recorder.StopRecGuard | acute_rig_control_gui.py:119-120 | `StopRecord` is in the script exactly when the recording query is true. |
| Recorder.CloseStopsRecordingFirst | acute_rig_control_gui.py:169-171 | In `close`, every `StopRecord` precedes every `StopAcquisition`. |
| Recorder.CloseStopsAcquisitionWhenNotRecording | acute_rig_control_gui.py:169-171 | `close` sends `StopAcquisition` only after the recorder, asked after `stop_rec`, says it is not recording but is acquiring. |
| ReferenceRecorder.QueryReference | acute_rig_control_gui.py:156-161 | Against a truthful recorder, a query returns the true status and changes nothing. |
| ReferenceRecorder.StartAcqReference | acute_rig_control_gui.py:60-68 | From idle, `start_acq` starts acquisition. Otherwise it reports already acquiring and changes nothing. |
| ReferenceRecorder.StartAcqIdempotent | acute_rig_control_gui.py:60-64 | A second `start_acq` sends only its query and changes nothing. |
| ReferenceRecorder.StopAcqReference | acute_rig_control_gui.py:70-82 | `stop_acq` refuses while recording, stops an acquisition, and reports when idle. The end phase is stated for each case. |
| ReferenceRecorder.StopRecReference | acute_rig_control_gui.py:118-126 | `stop_rec` turns recording into acquiring. Otherwise it changes nothing. |
| ReferenceRecorder.StartRecReference | acute_rig_control_gui.py:84-116 | From any phase `start_rec` leaves the recorder recording. It returns true exactly when it was not already recording. |
| ReferenceRecorder.UnlessRecordingReference | acute_rig_control_gui.py:94-113 | When not recording, `start_rec`'s remainder reaches recording and returns true. |
| ReferenceRecorder.BreakRecReference | acute_rig_control_gui.py:128-151 | A recording is stopped and restarted with exactly five commands. Otherwise only the query is sent. |
| ReferenceRecorder.CloseReference | acute_rig_control_gui.py:169-172 | `close` leaves the recorder idle from any phase. |
| Server.Lookup | rig_state_machine.py:132 | The dispatch table has exactly `trial` and `init`. Any other verb fails the lookup. |
| Server.PackULong | rig_state_machine.py:72-73 | `struct.pack('L', n)` gives four bytes for `0 <= n < 2^32` and raises otherwise. |
| Server.PackRoundTrip | rig_state_machine.py:72-73 | The four packed bytes read back, little-endian, as `n`. |
| Server.RunTrial | rig_state_machine.py:90-100 | `stim_file` is read before `number`, and a missing key fails with no effect. The handler succeeds exactly when the number reads as an integer that packs. It then writes the number, pauses half a second, plays that file and returns `played`. |
| Server.InitBoard | rig_state_machine.py:102-105 | `init_board` sets the pin mode and returns `ok`. |
| Server.InitAlwaysRaises | rig_state_machine.py:85-88 | As written, `execute_command` on `init` raises for every parameter map. |
| Server.ExecuteAsWritten | rig_state_machine.py:85-88 | As written, only `trial` can succeed, and it runs `run_trial` on the parameters. `init` raises, because `init_board` takes no arguments. Any other verb fails the lookup. |
| Server.Execute | rig_state_machine.py:85-88 | The corrected dispatch, which the server loop does not run: exactly the handler registered for the verb runs, `init_board` without the parameters. An unknown verb runs nothing. |
| Server.ExecuteCorrectsInit | rig_state_machine.py:85-88 | The corrected dispatch agrees with the written one on every verb but `init`, where it sets the pin mode and answers `ok`. |
| Server.Reply | rig_state_machine.py:130 | The reply is the response followed by ` from 5558`. |
| Server.Handle | rig_state_machine.py:127-128 | A line that fails parsing raises. Otherwise the parsed command goes through the dispatch as written. |
| Server.OnlyTrialsSucceed | rig_state_machine.py:85-88 | As written, a request succeeds only if it parses as a `trial` command, and its response is then `played`. |
| Server.Boot | rig_state_machine.py:138 | At start-up the board is initialised once. |
| Server.Respond | rig_state_machine.py:121-130 | A running server replies to a line exactly when handling, with the dispatch as written, succeeds. It appends the handler's effects and a one-second pause. A failure ends the process without a reply. |
| Server.InitKillsServer | rig_state_machine.py:85-88 | The request `init` gets no reply and ends a running server, and no later request is answered. |
| Server.HandleTrialLine | rig_state_machine.py:90-100 | A trial line with a space-free path and a packable number plays exactly that path after writing the number. |
| Server.NegativeTrialNumberFails | rig_state_machine.py:94-97 | A negative trial number fails when packed. |
| Server.DialogueAlternates | rig_state_machine.py:121-130 | Receiving and replying strictly alternate, with one reply per request, in order. |
| Server.Serve | rig_state_machine.py:121-130 | The loop serves requests in order until the first one whose handling raises. That request is received, nothing later is served, and the effects are those of the served requests. |
| Server.ServeRig | rig_state_machine.py:121-130 | When every request is served, reply `i` is handler response `i` followed by ` from 5558`. Since only trials succeed as written, every served request was a trial line and every reply is `played from 5558`. |
| Server.ServedRequestIsTrial | rig_state_machine.py:127-130 | A request the server answers is a trial line, and the answer is `played from 5558`. |
| Executor.StartTrial | acute_rig_control_gui.py:204-207 | `start_trial` is exactly one exchange of the trial line for the path and number. It times out exactly when the executor does not reply. |
| Executor.TrialReachesExecutor | acute_rig_control_gui.py:204-207 | Against a running executor, a trial gets `played from 5558` after a serial write, half a second, playback of that path, and one second. |
| Executor.NegativeTrialKillsExecutor | rig_state_machine.py:94-97 | A negative trial number gets no reply and leaves the executor dead for every later request. |
| TrialOrder.Range | acute_rig_control_gui.py:571 | `np.arange(n)` holds `i` at position `i`. |
| TrialOrder.RangeCounts | acute_rig_control_gui.py:571 | Each index below `n` occurs once in `np.arange(n)`. |
| TrialOrder.Tile | acute_rig_control_gui.py:571 | The tiled order has length `n * reps` and only indices below `n`. |
| TrialOrder.TileCounts | acute_rig_control_gui.py:571 | Each index below `n` occurs exactly `reps` times in the tiled order. |
| TrialOrder.Shuffle | acute_rig_control_gui.py:572 | The in-place Fisher–Yates shuffle permutes its input: same multiset, same length. |
| TrialOrder.BlockOrder | acute_rig_control_gui.py:570-572 | The block order has length `n * reps`, with each stimulus index exactly `reps` times. It raises exactly when the repeat count is negative and there is at least one stimulus; with none the order is empty. |
| Scheduler.PiPathKeepsName | acute_rig_control_gui.py:584-585 | The executor's path lies directly in `/home/pi/stimuli/` and has the file name of the local stimulus. |
| Scheduler.ItiWithinRange | acute_rig_control_gui.py:579-582 | With `min <= max` and a draw in [0, 1), a random interval lies in [min, max], and strictly below max when min < max. |
| Scheduler.PlayTrial | acute_rig_control_gui.py:583-594 | A trial sends `stim <file>` to the recorder, then the trial line for the executor's copy, then sleeps. It completes exactly when both peers reply and the interval is not negative. It raises a recorder timeout exactly when `stim` gets no reply. It raises an executor timeout exactly when the recorder replied and the executor did not. It raises on the sleep exactly when both replied and the interval is negative. The actions stop at that point. |
| Scheduler.TrialStep | acute_rig_control_gui.py:583-594 | A completed trial moved the recorder by its `stim` command and the executor by the trial line. A trial that raised did exactly the `stim` command on a recorder timeout, and `stim` and the trial line otherwise. The cause is named: the `stim` command the recorder, in its state at the trial's start, did not answer; the trial line the executor, in its state at the trial's start, did not answer; or the negative interval. When both peers always reply and the interval is not negative, it completes. |
| Scheduler.Teardown | acute_rig_control_gui.py:597 | The clean-up is `close` on the recorder as the trials left it. Its transcript is `close`'s, and it raises exactly when `close` times out, naming the command that timed out. Its commands are `close`'s script, or a prefix of it ending in that command. A recorder that always replies lets it finish. |
| Scheduler.OpenBlock | acute_rig_control_gui.py:563-565 | `start_block` runs `start_acq`'s script, then `start_rec`'s with the block's start-record line. Every reply it acts on is the recorder's own reply in the state the earlier commands left it in, and the recorder's end state and any timeout come from that same replay (`Rig.Replays`). A recorder that always replies lets it finish. |
| Scheduler.OpenBlockReference | acute_rig_control_gui.py:563-565 | Against a truthful recorder, opening a block always leaves it recording. |
| Scheduler.BlockTrialsLayout | acute_rig_control_gui.py:574-594 | Trial `j` of a block takes actions `3j` to `3j+2`: stimulus `order[j]` with 0-based trial number `j`, in order. |
| Scheduler.BlockStep | acute_rig_control_gui.py:583-594 | Trial `done` of a block extends the actions of the trials before it by its own. A raise leaves exactly the part of it that happened, with its cause, judged against the recorder and executor states the earlier trials led to. Otherwise the recorder has moved by its `stim` command and the executor by its trial line. |
| Scheduler.BlockBrokeWithin | acute_rig_control_gui.py:583-594 | The actions of a block whose trial raised extend those of the earlier trials and stop short of that trial's end. |
| Scheduler.BlockLoop | acute_rig_control_gui.py:574-594 | Each trial runs only if the flag was set at the top of its iteration, and no trial runs at or after an iteration that finds it cleared. The loop ends when the order is exhausted or the flag is seen cleared, or part-way through a trial that raised. In that case the actions are exactly the earlier trials and the part of the raising trial that happened: its `stim` command on a recorder timeout, and the trial line as well otherwise. The recorder's state is the one its `stim` commands led to, and the executor's the one the earlier trial lines led to. A raise names its cause: the `stim` command the recorder, in that state, did not answer; the trial line the executor, in that state, did not answer; or that trial's negative interval. When both peers always reply and no interval is negative, nothing raises. |
| Scheduler.BlockThreadTask | acute_rig_control_gui.py:569-599 | The order holds each stimulus `reps` times. A negative count raises before anything is sent when there is at least one stimulus, and gives an empty block otherwise. The trials are followed by `close`, and no trial starts after the flag is seen cleared. `close` runs on the recorder as the trials left it, and its transcript is the close log. The status is `Block Finished`. An exception in a trial ends the run without `close`. The actions are then the earlier trials and the part of that trial that happened, and the cause is named as in `Scheduler.BlockLoop`, against the recorder and executor states the earlier trials led to. A timeout in `close` leaves the trials and `close`'s commands up to the unanswered one, which names the timeout. When both peers always reply, no interval is negative and the count does not raise, the run ends `Block Finished`. |
| Scheduler.SearchFile | acute_rig_control_gui.py:603-609 | Without repeat, the stimulus is drawn from the stimuli; with repeat it is the previous one. |
| Scheduler.SearchRepeats | acute_rig_control_gui.py:608-609 | With repeat on, iteration `k` plays the stimulus of iteration `k-1`, or the first stimulus at `k = 0`. |
| Scheduler.SearchHoldsStimulus | acute_rig_control_gui.py:607-609 | While the repeat toggle stays on from iteration `i + 1` to iteration `k`, iteration `k` plays the stimulus of iteration `i`. |
| Scheduler.SearchTrialsLayout | acute_rig_control_gui.py:604-606 | Search iteration `j` runs trial number `j + 1`: numbering starts at 1 and goes up by one. |
| Scheduler.SearchStep | acute_rig_control_gui.py:606-624 | Search iteration `done` extends the actions of the iterations before it by its own. A raise leaves exactly the part of it that happened, with its cause, judged against the recorder and executor states the earlier iterations led to. Otherwise the recorder has moved by its `stim` command and the executor by its trial line. |
| Scheduler.SearchBrokeWithin | acute_rig_control_gui.py:606-624 | The actions of a search whose iteration raised extend those of the earlier iterations and stop short of that iteration's end. |
| Scheduler.SearchLoop | acute_rig_control_gui.py:605-624 | Iterations run while the flag is set at the top, and none at or after an iteration that finds it cleared. A raising trial ends the loop part-way through. The actions are then exactly the earlier iterations and the part of the raising one that happened, as in the block loop. The recorder's state is the one its `stim` commands led to, and the executor's the one the earlier trial lines led to. A raise names its cause against those states, as in the block loop. When both peers always reply and no interval is negative, nothing raises. |
| Scheduler.SearchThreadTask | acute_rig_control_gui.py:601-629 | Without stimuli it raises before sending anything. Otherwise the trials run while the flag is set, then `close` runs and the status is `Search Finished`. `close` runs on the recorder as the trials left it, and its transcript is the close log. An exception in an iteration leaves the earlier iterations and the part of that one that happened, with its cause named as in `Scheduler.SearchLoop`, against the recorder and executor states the earlier iterations led to. A timeout in `close` leaves the iterations and `close`'s commands up to the unanswered one, which names the timeout. When there are stimuli, both peers always reply and no interval is negative, the run ends `Search Finished` or is still running at the bound. |
| Scheduler.StopStays | acute_rig_control_gui.py:478-480 | Within one run, after a press of the stop button the run flag never reads set again, because the button only clears the flag. |
| Scheduler.StopHaltsTrials | acute_rig_control_gui.py:575-576 | When the worker's flag is the one the stop button drives, a press before iteration `k` leaves the flag cleared at every later check. A loop that stops at the first cleared flag, as `Scheduler.BlockLoop` and `Scheduler.SearchLoop` do, then starts no trial at or after `k`. |
| Executor.TrialAdvancesExecutor | rig_state_machine.py:121-130 | A running executor server sent a trial line for a space-free path and a packable number stays up. It adds the serial write, half a second, playback of that path and one second to what it has done, and replies `played from 5558`. |
| Scheduler.BlockLinesPlayed | acute_rig_control_gui.py:583-592 | A running executor server sent the trial lines of a block's first `k` trials stays up. It has written each trial number, paused, played the executor's copy of that trial's stimulus and paused again, in trial order, provided no executor copy has a space in its path. |
| Scheduler.SearchLinesPlayed | acute_rig_control_gui.py:614-622 | The same for a search's first `k` iterations, with trial numbers counting from 1. |
| Scheduler.RespondingBlockNoExecutorTimeout | acute_rig_control_gui.py:592 | A block whose executor is a server that was running when the block began never raises an executor timeout, provided no executor copy of a stimulus has a space in its path and the trial numbers fit the serial format. |
| Scheduler.RespondingSearchNoExecutorTimeout | acute_rig_control_gui.py:622 | The same for a search iteration whose trial number fits the serial format. |
| Scheduler.RepeatKept | acute_rig_control_gui.py:483-484 | The repeat toggle keeps its value between presses of its button. |
| Scheduler.RepeatButtonHoldsStimulus | acute_rig_control_gui.py:607-609 | When the repeat button turned repeating on before iteration `i + 1` and was not pressed again up to iteration `k`, iterations `i + 1` to `k` play the stimulus of iteration `i`. |

## Left out

- Sockets: ZeroMQ contexts, `connect`, `context.destroy()` and the timeout settings are not modelled. A timeout is a peer's missing reply, and the exception it raises is a `TimedOut` error.
- GUI: the Tkinter layout, entry locking (`lock_params`, `unlock_params`), status-label texts other than the final one, and every `print` are left out. The printed outcomes of the recorder operations are their result values.
- Threads: `threading.Event` and the worker thread are left out. The flag is read through the `ticks` oracle once per iteration, and the GUI's concurrent changes to the interval mode and repeat toggle arrive the same way. `Scheduler.FlagAt` and `Scheduler.RepeatAt` give the flag and the toggle the two buttons produce, for a press history given as input.
- Randomness: numpy's random draws are oracle inputs.
  - Shuffle: numpy's bounded integer draw for position `i` is modelled as `draws(i) % (i + 1)`.
  - `randint(n)` is modelled as `pick % n`.
  - `random()` is a real `u`, with no range constraint except in `Scheduler.ItiWithinRange`.
- Scheduler.SearchThreadTask: runs at most `bound` iterations and then reports `StillRunning`. A search that is never stopped runs forever in the source.
- Scheduler.OpenBlock: models only the recording calls of `start_block`. Connecting, loading stimuli, adding sine tracks, computing the block length, copying stimuli, naming the block, the five-second sleep and starting the thread are left out, as file, SSH and clock I/O.
- Text.ParseNumber: reads `[+-]digits[.digits]` exactly and truncates toward zero. Floating-point rounding of numbers beyond 2^53 is not modelled. Neither are exponents, `inf`/`nan` and surrounding whitespace, which the executor's Python 2 `float()` also accepts.
- Text.IntToStringParses: stated only for magnitudes up to 2^53. Beyond that `float` rounds, and the executor reads back a nearby number instead.
- Server.NegativeTrialNumberFails: stated for numbers down to -2^53, for the same reason. Below that the source also fails, but on the rounded number.
- Executor.NegativeTrialKillsExecutor: stated for numbers down to -2^53, as above.
- Scheduler.StopStays: the press history has no second `start_block`. The Start button stays enabled during a run, because `lock_params` disables only the entries. A second `start_block` replaces the flag with a new, set one (acute_rig_control_gui.py:559-560), and the old worker then reads that flag at :576 or :605. So the flag can read set again after a stop press, and that is not promised against.
- Scheduler.ItiWithinRange: the bounds hold for exact reals. In doubles `(max - min) * u + min` can round up to `max`: with `u = 1 - 2^-53`, `min = 2.0` and `max = 5.0` it gives 5.0. So the strict upper bound is not promised for the program's floats.
- Server.RunTrial: assumes that playback and the serial write do not raise. A missing or unreadable stimulus file (`wave.open`) or a serial error would also end the server without a reply.
- Server.PackULong: assumes the Pi's 32-bit userland, where `'L'` is four bytes. On a 64-bit Pi it is eight.
- Executor hardware: `WavPlayer`, `SerialOutput`, GPIO and the audio stream are effects (`SerialWrite`, `Play`, `BoardMode`, `Pause`). Playback duration is not modelled.
- Recording options: the `rec_par` dictionary is an ordered list, assuming Python 3.7+ insertion order.
- `break_rec` is modelled although the GUI never calls it. Its outcome values model what it prints, since it returns nothing.
- Replies: the reply to `stim <file>` and the executor's reply to a trial are received and ignored by the source, and the model ignores them too.
- Recorder.Close: states the commands sent. The printed outcomes follow from `Recorder.StopRec` and `Recorder.StopAcq`, and the socket teardown is not modelled.

## Findings

| source | as written | input that shows it | evidently intended | confidence | as-written member | corrected member |
|---|---|---|---|---|---|---|
| rig_state_machine.py:87 | `execute_command` calls every handler with the parameter map, but `init_board()` takes no arguments, so `init` raises `TypeError` and the server process ends | the request line `init` | `init` runs `init_board()` and answers `ok from 5558` | high; not executed | Server.InitAlwaysRaises | Server.ExecuteCorrectsInit |

=== FILE: command_line.dfy ===
/** The textual command format shared by the session controller and the trial
    executor: a verb followed by space-separated name/value tokens. Parsing is
    `parse_command`, which exists with the same body on both sides; the two
    encoders are the trial command (`name value` tokens) and the recording
    controller's start-record command (`name=value` tokens). */
module CommandLine {
  import opened Outcomes
  import opened Text

  /** A parsed command line: the verb and the name/value parameters. */
  datatype Command = Command(verb: string, params: map<string, string>)

  /** `parse_command` asserts an odd token count; otherwise the assertion fails. */
  datatype ParseError = EvenTokenCount(tokens: nat)

  /** No pair at an even position after `i` reuses the name at `i`. */
  ghost predicate LastPairNamed(kv: seq<string>, i: nat)
    requires i < |kv|
  {
    forall j :: i < j < |kv| && j % 2 == 0 ==> kv[j] != kv[i]
  }

  /** The names of the pairs in `kv`: the tokens at even positions. */
  ghost function Names(kv: seq<string>): set<string>
  {
    set i | 0 <= i < |kv| && i % 2 == 0 :: kv[i]
  }

  /** The dictionary `{kv[i]: kv[i+1] for i in range(0, len(kv), 2)}`, built
      left to right so that a later pair overwrites an earlier one. */
  function Pairs(kv: seq<string>): map<string, string>
    requires |kv| % 2 == 0
    decreases |kv|
  {
    if |kv| == 0 then map[] else map[kv[0] := kv[1]] + Pairs(kv[2..])
  }

  lemma {:induction false} NamesOfPairs(kv: seq<string>)
    requires |kv| >= 2
    ensures Names(kv) == {kv[0]} + Names(kv[2..])
  {
    var rest := kv[2..];
    forall k | k in Names(kv) ensures k in {kv[0]} + Names(rest) {
      var i :| 0 <= i < |kv| && i % 2 == 0 && kv[i] == k;
      if i > 0 {
        assert rest[i - 2] == k;
      }
    }
    forall k | k in Names(rest) ensures k in Names(kv) {
      var i :| 0 <= i < |rest| && i % 2 == 0 && rest[i] == k;
      assert kv[i + 2] == k;
    }
  }

  /** Every name of a pair is a key and nothing else is. */
  lemma {:induction false} PairsKeys(kv: seq<string>)
    requires |kv| % 2 == 0
    ensures Pairs(kv).Keys == Names(kv)
    decreases |kv|
  {
    if |kv| > 0 {
      PairsKeys(kv[2..]);
      NamesOfPairs(kv);
    }
  }

  /** A name used more than once keeps the value of its last pair. */
  lemma {:induction false} PairsLastWins(kv: seq<string>, i: nat)
    requires |kv| % 2 == 0 && i < |kv| && i % 2 == 0
    requires LastPairNamed(kv, i)
    ensures kv[i] in Pairs(kv) && Pairs(kv)[kv[i]] == kv[i + 1]
    decreases |kv|
  {
    var rest := kv[2..];
    PairsKeys(rest);
    if i > 0 {
      assert rest[i - 2] == kv[i] && rest[i - 1] == kv[i + 1];
      assert LastPairNamed(rest, i - 2) by {
        forall j | i - 2 < j < |rest| && j % 2 == 0 ensures rest[j] != rest[i - 2] {
          assert rest[j] == kv[j + 2];
        }
      }
      PairsLastWins(rest, i - 2);
    }
  }

  /** `parse_command(line)`: split on single spaces; the token count must be
      odd, i.e. the line has an even number of spaces. The verb is the text
      up to the first space. */
  function ParseCommand(line: string): (r: Result<Command, ParseError>)
    ensures r.Err? <==> Count(line, ' ') % 2 == 1
    ensures r.Ok? ==> ' ' !in r.value.verb && r.value.verb <= line
    ensures r.Ok? && |r.value.verb| < |line| ==> line[|r.value.verb|] == ' '
  {
    var toks := Split(line, ' ');
    if |toks| % 2 == 0 then Err(EvenTokenCount(|toks|))
    else Ok(Command(toks[0], Pairs(toks[1..])))
  }

  /** On success the parameters are the pairs after the verb: their names
      are exactly the keys, and a repeated name keeps its last value. */
  lemma ParsedParameters(line: string, i: nat)
    requires ParseCommand(line).Ok?
    ensures var pairs := Split(line, ' ')[1..];
      ParseCommand(line).value.params.Keys == Names(pairs)
    ensures var pairs := Split(line, ' ')[1..];
      i + 1 < |pairs| && i % 2 == 0 && LastPairNamed(pairs, i) ==>
        pairs[i] in ParseCommand(line).value.params
        && ParseCommand(line).value.params[pairs[i]] == pairs[i + 1]
  {
    var pairs := Split(line, ' ')[1..];
    PairsKeys(pairs);
    if i + 1 < |pairs| && i % 2 == 0 && LastPairNamed(pairs, i) {
      PairsLastWins(pairs, i);
    }
  }

  /** `RigStateMachineConnection.start_trial`'s command line. */
  function TrialLine(path: string, number: int): string
  {
    "trial " + "stim_file " + path + " " + "number " + IntToString(number)
  }

  lemma JoinCons(head: string, rest: seq<string>, sep: char)
    requires |rest| >= 1
    ensures Join([head] + rest, sep) == head + [sep] + Join(rest, sep)
  {
    assert ([head] + rest)[1..] == rest;
  }

  lemma TrialLineTokens(path: string, number: int)
    ensures TrialLine(path, number) == Join(["trial", "stim_file", path, "number", IntToString(number)], ' ')
  {
    var n := IntToString(number);
    JoinCons("number", [n], ' ');
    JoinCons(path, ["number", n], ' ');
    JoinCons("stim_file", [path, "number", n], ' ');
    JoinCons("trial", ["stim_file", path, "number", n], ' ');
  }

  lemma PairsOfTwo(a: string, b: string, c: string, d: string)
    ensures Pairs([a, b, c, d]) == map[a := b] + map[c := d]
  {
    var kv := [a, b, c, d];
    assert kv[2..] == [c, d];
    assert kv[2..][2..] == [];
    assert Pairs(kv[2..][2..]) == map[];
    assert Pairs(kv[2..]) == map[c := d] + map[];
    assert map[c := d] + map[] == map[c := d];
  }

  /** For a path without spaces the trial executor parses the trial line back
      into verb `trial` with exactly the stimulus path and the decimal number. */
  lemma TrialLineRoundTrip(path: string, number: int)
    requires ' ' !in path
    ensures ParseCommand(TrialLine(path, number)) == Ok(Command("trial", map["stim_file" := path, "number" := IntToString(number)]))
  {
    var n := IntToString(number);
    var toks := ["trial", "stim_file", path, "number", n];
    TrialLineTokens(path, number);
    SplitJoin(toks, ' ');
    assert toks[1..] == ["stim_file", path, "number", n];
    PairsOfTwo("stim_file", path, "number", n);
    assert map["stim_file" := path] + map["number" := n] == map["stim_file" := path, "number" := n];
  }

  lemma CountJoinCons(head: string, rest: seq<string>, sep: char)
    requires |rest| >= 1
    ensures Count(Join([head] + rest, sep), sep) == Count(head, sep) + 1 + Count(Join(rest, sep), sep)
  {
    JoinCons(head, rest, sep);
    CountConcat(head + [sep], Join(rest, sep), sep);
    CountConcat(head, [sep], sep);
  }

  lemma KeywordsHaveNoSpaces()
    ensures Count("trial", ' ') == 0 && Count("stim_file", ' ') == 0 && Count("number", ' ') == 0
  {
    CountAbsent("trial", ' ');
    CountAbsent("stim_file", ' ');
    CountAbsent("number", ' ');
  }

  lemma CountJoinFive(parts: seq<string>, sep: char)
    requires |parts| == 5
    ensures Count(Join(parts, sep), sep)
      == Count(parts[0], sep) + Count(parts[1], sep) + Count(parts[2], sep) + Count(parts[3], sep) + Count(parts[4], sep) + 4
  {
    assert parts == [parts[0]] + parts[1..];
    assert parts[1..] == [parts[1]] + parts[2..];
    assert parts[2..] == [parts[2]] + parts[3..];
    assert parts[3..] == [parts[3]] + [parts[4]];
    CountJoinCons(parts[3], [parts[4]], sep);
    CountJoinCons(parts[2], parts[3..], sep);
    CountJoinCons(parts[1], parts[2..], sep);
    CountJoinCons(parts[0], parts[1..], sep);
  }

  /** The trial line has four spaces besides those of the path. */
  lemma TrialLineSpaces(path: string, number: int)
    ensures Count(TrialLine(path, number), ' ') == Count(path, ' ') + 4
  {
    var n := IntToString(number);
    CountAbsent(n, ' ');
    KeywordsHaveNoSpaces();
    TrialLineTokens(path, number);
    CountJoinFive(["trial", "stim_file", path, "number", n], ' ');
  }

  /** A path with an odd number of spaces makes the token count even, so the
      trial executor's assertion rejects the line. */
  lemma TrialLineOddSpacesRejected(path: string, number: int)
    ensures Count(path, ' ') % 2 == 1 ==> ParseCommand(TrialLine(path, number)).Err?
  {
    TrialLineSpaces(path, number);
    FourMoreSpaces(TrialLine(path, number), path);
  }

  lemma FourMoreSpaces(line: string, path: string)
    requires Count(line, ' ') == Count(path, ' ') + 4
    ensures Count(path, ' ') % 2 == 1 ==> ParseCommand(line).Err?
  {
  }

  lemma SevenTokenLine(line: string, a: string, b: string, c: string, n: string)
    requires ' ' !in a && ' ' !in b && ' ' !in c && ' ' !in n
    requires line == Join(["trial", "stim_file", a, b, c, "number", n], ' ')
    ensures ParseCommand(line) == Ok(Command("trial", map["stim_file" := a] + (map[b := c] + map["number" := n])))
  {
    var toks := ["trial", "stim_file", a, b, c, "number", n];
    SplitJoin(toks, ' ');
    var rest := toks[1..];
    assert rest == ["stim_file", a, b, c, "number", n];
    assert rest[2..] == [b, c, "number", n];
    PairsOfTwo(b, c, "number", n);
  }

  /** A path with two spaces is not rejected but misparsed: the stimulus
      becomes its first segment and the other two become a stray parameter. */
  lemma TrialLineTwoSpacesMisparsed(a: string, b: string, c: string, number: int)
    ensures ' ' !in a && ' ' !in b && ' ' !in c ==>
      var r := ParseCommand(TrialLine(a + " " + b + " " + c, number));
      r.Ok? && r.value.params == map["stim_file" := a] + (map[b := c] + map["number" := IntToString(number)])
  {
    if ' ' !in a && ' ' !in b && ' ' !in c {
      SpacedPathTokens(a, b, c, number);
      SevenTokenLine(TrialLine(a + " " + b + " " + c, number), a, b, c, IntToString(number));
    }
  }

  lemma {:induction false} JoinAppend(xs: seq<string>, ys: seq<string>, sep: char)
    requires |xs| >= 1 && |ys| >= 1
    ensures Join(xs + ys, sep) == Join(xs, sep) + [sep] + Join(ys, sep)
  {
    if |xs| == 1 {
      JoinCons(xs[0], ys, sep);
    } else {
      JoinAppend(xs[1..], ys, sep);
      assert (xs + ys)[1..] == xs[1..] + ys;
      JoinCons(xs[0], xs[1..] + ys, sep);
      JoinCons(xs[0], xs[1..], sep);
      assert [xs[0]] + xs[1..] == xs;
      assert [xs[0]] + (xs[1..] + ys) == xs + ys;
    }
  }

  lemma ThreeSegments(a: string, b: string, c: string)
    ensures Join([a, b, c], ' ') == a + " " + b + " " + c
  {
    JoinCons(b, [c], ' ');
    JoinCons(a, [b, c], ' ');
  }

  lemma SpacedPathTokens(a: string, b: string, c: string, number: int)
    ensures TrialLine(a + " " + b + " " + c, number)
      == Join(["trial", "stim_file", a, b, c, "number", IntToString(number)], ' ')
  {
    var n := IntToString(number);
    var path := a + " " + b + " " + c;
    var front: seq<string> := ["trial", "stim_file"];
    var back: seq<string> := ["number", n];
    TrialLineTokens(path, number);
    ThreeSegments(a, b, c);
    JoinAppend([path], back, ' ');
    JoinAppend(front, [path] + back, ' ');
    JoinAppend([a, b, c], back, ' ');
    JoinAppend(front, [a, b, c] + back, ' ');
    assert front + ([path] + back) == ["trial", "stim_file", path, "number", n];
    assert front + ([a, b, c] + back) == ["trial", "stim_file", a, b, c, "number", n];
  }

  /** An ordered option dictionary (`rec_par`); `None` marks an unset option. */
  type RecordOptions = seq<(string, Option<string>)>

  /** The options that are set, in dictionary order. */
  function SetOptions(opts: RecordOptions): seq<(string, string)>
  {
    if |opts| == 0 then []
    else
      (match opts[0].1
       case Some(v) => [(opts[0].0, v)]
       case None => [])
      + SetOptions(opts[1..])
  }

  /** Exactly the options with a value are kept. */
  lemma {:induction false} SetOptionsMembers(opts: RecordOptions, name: string, value: string)
    ensures (name, value) in SetOptions(opts) <==> (name, Some(value)) in opts
  {
    if |opts| > 0 {
      SetOptionsMembers(opts[1..], name, value);
      assert (name, Some(value)) in opts <==> opts[0] == (name, Some(value)) || (name, Some(value)) in opts[1..];
    }
  }

  /** The token of one option: `'{0}={1}'.format(key, value)`, none when unset. */
  function OptionToken(o: (string, Option<string>)): seq<string>
  {
    match o.1
    case Some(v) => [o.0 + "=" + v]
    case None => []
  }

  /** The tokens of the options that are set, in dictionary order. */
  function OptionTokens(opts: RecordOptions): seq<string>
  {
    if |opts| == 0 then [] else OptionToken(opts[0]) + OptionTokens(opts[1..])
  }

  /** `' '.join(['StartRecord'] + rec_opt)` from `OpenEphysEvents.start_rec`. */
  function RecordLine(opts: RecordOptions): string
  {
    Join(["StartRecord"] + OptionTokens(opts), ' ')
  }

  /** Reference decoder for the `name=value` convention: split at the first `=`. */
  function NameValue(tok: string): Option<(string, string)>
  {
    var name := Split(tok, '=')[0];
    if |name| < |tok| then Some((name, tok[|name| + 1..])) else None
  }

  function NameValues(toks: seq<string>): Option<seq<(string, string)>>
  {
    if |toks| == 0 then Some([])
    else
      match (NameValue(toks[0]), NameValues(toks[1..]))
      case (Some(p), Some(ps)) => Some([p] + ps)
      case _ => None
  }

  /** Reference decoder of a start-record line: the verb, then `name=value` tokens. */
  function ParseRecordLine(line: string): Option<seq<(string, string)>>
  {
    var toks := Split(line, ' ');
    if toks[0] != "StartRecord" then None else NameValues(toks[1..])
  }

  /** Options whose names carry no space or `=` and whose values carry no space. */
  ghost predicate PlainOptions(opts: RecordOptions)
  {
    forall i :: 0 <= i < |opts| ==>
      ' ' !in opts[i].0 && '=' !in opts[i].0 && (opts[i].1.Some? ==> ' ' !in opts[i].1.value)
  }

  lemma {:induction false} NameValueOf(name: string, value: string)
    requires '=' !in name
    ensures NameValue(name + "=" + value) == Some((name, value))
  {
    SplitAtFirstSeparator(name, value, '=');
    assert name + "=" + value == name + ['='] + value;
  }

  lemma {:induction false} OptionTokensDecode(opts: RecordOptions)
    requires PlainOptions(opts)
    ensures NameValues(OptionTokens(opts)) == Some(SetOptions(opts))
    ensures forall i :: 0 <= i < |OptionTokens(opts)| ==> ' ' !in OptionTokens(opts)[i]
  {
    if |opts| > 0 {
      assert PlainOptions(opts[1..]) by {
        forall i | 0 <= i < |opts[1..]| ensures ' ' !in opts[1..][i].0 {
          assert opts[1..][i] == opts[i + 1];
        }
      }
      OptionTokensDecode(opts[1..]);
      match opts[0].1
      case Some(v) =>
        NameValueOf(opts[0].0, v);
        var toks := OptionTokens(opts);
        assert toks == [opts[0].0 + "=" + v] + OptionTokens(opts[1..]);
        assert toks[1..] == OptionTokens(opts[1..]);
      case None =>
        assert OptionTokens(opts) == OptionTokens(opts[1..]);
        assert SetOptions(opts) == SetOptions(opts[1..]);
    }
  }

  /** The recording controller recovers exactly the set options, in order,
      from the start-record line. */
  lemma RecordLineRoundTrip(opts: RecordOptions)
    requires PlainOptions(opts)
    ensures ParseRecordLine(RecordLine(opts)) == Some(SetOptions(opts))
  {
    var toks := ["StartRecord"] + OptionTokens(opts);
    OptionTokensDecode(opts);
    SplitJoin(toks, ' ');
    assert toks[1..] == OptionTokens(opts);
  }

  /** The line always starts with the verb `StartRecord`. */
  lemma RecordLineVerb(opts: RecordOptions)
    ensures |RecordLine(opts)| >= 11 && RecordLine(opts)[..11] == "StartRecord"
  {
    var toks := OptionTokens(opts);
    if |toks| > 0 {
      assert RecordLine(opts) == "StartRecord" + [' '] + Join(toks, ' ');
    }
  }

  lemma OptionTokensCons(o: (string, Option<string>), rest: RecordOptions)
    ensures OptionTokens([o] + rest) == OptionToken(o) + OptionTokens(rest)
  {
    assert ([o] + rest)[1..] == rest;
  }

  /** `start_rec`'s default options: only `CreateNewDir` is set. */
  function DefaultRecordOptions(): RecordOptions
  {
    [("CreateNewDir", Some("0")), ("RecDir", None), ("PrependText", None), ("AppendText", None)]
  }

  /** The options `start_block` passes: a new recording into the block's directory. */
  function BlockRecordOptions(blockPath: string): RecordOptions
  {
    [("CreateNewDir", Some("0")), ("RecDir", Some(blockPath)), ("PrependText", None), ("AppendText", None)]
  }

  lemma FourOptionTokens(opts: RecordOptions)
    requires |opts| == 4
    ensures OptionTokens(opts) == OptionToken(opts[0]) + OptionToken(opts[1]) + OptionToken(opts[2]) + OptionToken(opts[3])
  {
    assert opts == [opts[0]] + opts[1..];
    assert opts[1..] == [opts[1]] + opts[2..];
    assert opts[2..] == [opts[2]] + opts[3..];
    assert opts[3..] == [opts[3]] + [];
    OptionTokensCons(opts[3], []);
    OptionTokensCons(opts[2], opts[3..]);
    OptionTokensCons(opts[1], opts[2..]);
    OptionTokensCons(opts[0], opts[1..]);
  }

  lemma DefaultOptionTokens()
    ensures OptionTokens(DefaultRecordOptions()) == ["CreateNewDir=0"]
  {
    var opts := DefaultRecordOptions();
    FourOptionTokens(opts);
    assert OptionToken(opts[0]) == ["CreateNewDir" + "=" + "0"];
    assert OptionToken(opts[1]) == [] && OptionToken(opts[2]) == [] && OptionToken(opts[3]) == [];
    assert "CreateNewDir" + "=" + "0" == "CreateNewDir=0";
  }

  /** By default the recording controller is told only not to open a new directory. */
  lemma DefaultRecordLine()
    ensures RecordLine(DefaultRecordOptions()) == "StartRecord CreateNewDir=0"
  {
    DefaultOptionTokens();
    OneTokenLine(DefaultRecordOptions(), "CreateNewDir=0");
  }

  lemma BlockOptionTokens(blockPath: string)
    ensures OptionTokens(BlockRecordOptions(blockPath)) == ["CreateNewDir=0", "RecDir=" + blockPath]
  {
    var opts := BlockRecordOptions(blockPath);
    FourOptionTokens(opts);
    assert OptionToken(opts[0]) == ["CreateNewDir" + "=" + "0"];
    assert OptionToken(opts[1]) == ["RecDir" + "=" + blockPath];
    assert OptionToken(opts[2]) == [] && OptionToken(opts[3]) == [];
    assert "CreateNewDir" + "=" + "0" == "CreateNewDir=0";
    assert "RecDir" + "=" + blockPath == "RecDir=" + blockPath;
  }

  lemma OneTokenLine(opts: RecordOptions, a: string)
    requires OptionTokens(opts) == [a]
    ensures RecordLine(opts) == "StartRecord" + [' '] + a
  {
    JoinCons("StartRecord", [a], ' ');
  }

  lemma TwoTokenLine(opts: RecordOptions, a: string, b: string)
    requires OptionTokens(opts) == [a, b]
    ensures RecordLine(opts) == "StartRecord" + [' '] + a + [' '] + b
  {
    JoinCons("StartRecord", [a, b], ' ');
    JoinCons(a, [b], ' ');
    assert [a, b][1..] == [b];
  }

  /** A block's recording goes to the block's directory and nothing else changes. */
  lemma BlockRecordLine(blockPath: string)
    ensures RecordLine(BlockRecordOptions(blockPath)) == "StartRecord CreateNewDir=0 RecDir=" + blockPath
  {
    BlockOptionTokens(blockPath);
    TwoTokenLine(BlockRecordOptions(blockPath), "CreateNewDir=0", "RecDir=" + blockPath);
    assert "StartRecord" + [' '] + "CreateNewDir=0" + [' '] == "StartRecord CreateNewDir=0 ";
  }
}

=== FILE: executor.dfy ===
/** The session controller's side of the trial executor
    (`RigStateMachineConnection`): a trial is one request carrying the
    stimulus path and the trial number. */
module Executor {
  import opened Outcomes
  import opened CommandLine
  import opened Rig
  import opened Server
  import Text

  /** `start_trial(stimulus_path, number)`: send the trial line and wait for
      the executor's reply, which is returned but not inspected. */
  method StartTrial<Q(!new)>(executor: Peer<Q>, q: Q, path: string, number: int) returns (r: Run<Q, string>)
    ensures r == Send(executor, q, TrialLine(path, number))
    ensures Sent(r) == [TrialLine(path, number)]
    ensures r.res.Ok? ==> r.log == [Exchange(TrialLine(path, number), r.res.value)]
    ensures r.res.Err? ==> r.log == [] && r.res.error == TimedOut(TrialLine(path, number))
  {
    r := Send(executor, q, TrialLine(path, number));
  }

  /** End to end, against a running executor: a trial for a path without
      spaces and a number that fits the serial format is answered with
      `played from 5558`, after the executor wrote the number, paused half a
      second, played exactly that path and paused a second. */
  lemma TrialReachesExecutor(d: Device, path: string, number: int)
    requires d.up && ' ' !in path && 0 <= number < ULongLimit
    ensures var r := Send(Respond, d, TrialLine(path, number));
      r.res == Ok("played from " + Port)
      && r.remote == Device(d.effects + [SerialWrite(PackULong(number).value), Pause(500), Play(path), Pause(1000)], true)
  {
    var line := TrialLine(path, number);
    var effects := [SerialWrite(PackULong(number).value), Pause(500), Play(path)];
    HandleTrialLine(path, number);
    assert Handle(line).value == ("played", effects);
    var (d', reply) := Respond(d, line);
    assert reply == Some(Reply("played"));
    assert "played" + " from " == "played from ";
    assert d' == Device(d.effects + effects + [Pause(1000)], true);
    assert effects + [Pause(1000)] == [SerialWrite(PackULong(number).value), Pause(500), Play(path), Pause(1000)];
  }

  /** What a running executor does for one trial: write the number, pause
      half a second, play the path and pause a second. */
  function TrialEffects(path: string, number: int): seq<Effect>
    requires 0 <= number < ULongLimit
  {
    [SerialWrite(PackULong(number).value), Pause(500), Play(path), Pause(1000)]
  }

  /** One trial as a step of the executor server: it stays up, adds the
      trial's effects and replies `played from 5558`. */
  lemma TrialAdvancesExecutor(d: Device, path: string, number: int)
    requires d.up && ' ' !in path && 0 <= number < ULongLimit
    ensures Respond(d, TrialLine(path, number))
      == (Device(d.effects + TrialEffects(path, number), true), Some("played from " + Port))
  {
    TrialReachesExecutor(d, path, number);
  }

  /** A negative trial number kills the executor: the trial gets no reply,
      and every later request times out. */
  lemma NegativeTrialKillsExecutor(d: Device, path: string, number: int, later: string)
    requires d.up && ' ' !in path && -Text.FloatExact <= number < 0
    ensures var r := Send(Respond, d, TrialLine(path, number));
      r.res == Err(TimedOut(TrialLine(path, number)))
      && !r.remote.up
      && Send(Respond, r.remote, later).res.Err?
  {
    NegativeTrialNumberFails(path, number);
  }
}

=== FILE: outcomes.dfy ===
/** Failure-compatible wrappers used throughout the model: an optional value
    and a value-or-error result. */
module Outcomes {

  /** A value that may be absent (Python's `None`). */
  datatype Option<+T> = None | Some(value: T)

  /** The outcome of an operation that may raise: a value or the error raised. */
  datatype Result<+T, +E> = Ok(value: T) | Err(error: E) {

    predicate IsFailure() {
      Err?
    }

    function PropagateFailure<U>(): Result<U, E>
      requires Err?
    {
      Err(error)
    }

    function Extract(): T
      requires Ok?
    {
      value
    }
  }
}

=== FILE: recorder.dfy ===
/** The session controller's client of the recording controller
    (`OpenEphysEvents`). Every operation first asks the recorder whether it is
    acquiring or recording and decides from the answers which command to send,
    so the commands an operation sends are a function of the answers it got.
    For each operation that function is written out as a script, and a lemma
    shows the operation keeps to it, whatever the recorder answers. A
    reference recorder that answers truthfully shows what the operations
    achieve against a well-behaved peer. */
module Recorder {
  import opened Outcomes
  import opened CommandLine
  import opened Rig

  /** The two status queries, `query_status('Recording')` and `query_status('Acquiring')`. */
  datatype Status = IsRecording | IsAcquiring

  function QueryCommand(q: Status): string
  {
    match q
    case IsRecording => "isRecording"
    case IsAcquiring => "isAcquiring"
  }

  /** The reply to a status query: `b'1'` is true, `b'0'` is false, and
      anything else is unknown (`None`). */
  function Decode(reply: string): (r: Option<bool>)
    ensures r == Some(true) <==> reply == "1"
    ensures r == Some(false) <==> reply == "0"
    ensures r == None <==> reply != "1" && reply != "0"
  {
    if reply == "1" then Some(true) else if reply == "0" then Some(false) else None
  }

  /** Python truthiness of a query answer in `if` and `not`: `None` counts as false. */
  predicate Holds(a: Option<bool>)
  {
    a == Some(true)
  }

  /** The decoded answer of exchange `i` of a transcript; `None` when there
      is no such exchange. */
  function Answer(log: seq<Exchange>, i: int): Option<bool>
  {
    if 0 <= i < |log| then Decode(log[i].reply) else None
  }

  /** Exchange `i` answered true. */
  predicate Yes(log: seq<Exchange>, i: int)
  {
    Holds(Answer(log, i))
  }

  /** The transcript from exchange `n` on. */
  function Drop(log: seq<Exchange>, n: nat): seq<Exchange>
  {
    if n <= |log| then log[n..] else []
  }

  lemma AnswerAppend(a: seq<Exchange>, b: seq<Exchange>, i: int)
    requires 0 <= i
    ensures Answer(a + b, i) == if i < |a| then Answer(a, i) else Answer(b, i - |a|)
  {
    if i < |a| {
      assert (a + b)[i] == a[i];
    } else if i < |a| + |b| {
      assert (a + b)[i] == b[i - |a|];
    }
  }

  lemma DropAppend(a: seq<Exchange>, b: seq<Exchange>)
    ensures Drop(a + b, |a|) == b
  {
    assert (a + b)[|a|..] == b;
  }

  /** `query_status(q)`: one exchange, decoded. */
  function Query<P(!new)>(peer: Peer<P>, p: P, q: Status): (r: Run<P, Option<bool>>)
    ensures Follows(r, [QueryCommand(q)])
    ensures r.res.Ok? ==> |r.log| == 1 && r.res.value == Answer(r.log, 0)
    ensures Answers(peer) ==> r.res.Ok?
    ensures Replays(peer, p, r)
    ensures r.res.Ok? <==> peer(p, QueryCommand(q)).1.Some?
    ensures r.res.Ok? ==> r.res.value == Decode(peer(p, QueryCommand(q)).1.value)
  {
    var s := Send(peer, p, QueryCommand(q));
    SendReplays(peer, p, QueryCommand(q));
    if s.res.Err? then Fail(s) else Done(s, Decode(s.res.value))
  }

  /** Send `cmd`, then query `q` to see whether it took effect. */
  function Confirm<P(!new)>(peer: Peer<P>, p: P, cmd: string, q: Status): (r: Run<P, Option<bool>>)
    ensures Follows(r, [cmd, QueryCommand(q)])
    ensures r.res.Ok? ==> |r.log| == 2 && r.res.value == Answer(r.log, 1)
    ensures Answers(peer) ==> r.res.Ok?
    ensures Replays(peer, p, r)
  {
    var s := Send(peer, p, cmd);
    SendReplays(peer, p, cmd);
    if s.res.Err? then Fail(s)
    else
      var c := Query(peer, s.remote, q);
      ThenFollows(s, c, [cmd], [QueryCommand(q)]);
      AnswerAppend(s.log, c.log, 1);
      ThenReplays(peer, p, s, c);
      Then(s, c)
  }

  // ---- start_acq ----

  /** What `start_acq` prints. */
  datatype AcqStart = AlreadyAcquiring | AcquisitionStarted | AcquisitionFailed

  /** The commands of `start_acq` given the answers in its transcript. */
  function StartAcqScript(log: seq<Exchange>): seq<string>
  {
    ["isAcquiring"] + (if Yes(log, 0) then [] else ["StartAcquisition", "isAcquiring"])
  }

  /** `start_acq`: start acquisition unless the recorder says it is acquiring,
      then ask again to confirm. `StartAcquisition` is sent exactly when the
      first query did not answer true, and the printed outcome is read off
      the two answers. */
  function StartAcq<P(!new)>(peer: Peer<P>, p: P): (r: Run<P, AcqStart>)
    ensures Follows(r, StartAcqScript(r.log))
    ensures r.res.Ok? ==>
      (r.res.value == AlreadyAcquiring <==> Yes(r.log, 0))
      && (r.res.value == AcquisitionStarted <==> !Yes(r.log, 0) && Yes(r.log, 2))
    ensures Replays(peer, p, r)
    ensures Answers(peer) ==> r.res.Ok?
  {
    var q := Query(peer, p, IsAcquiring);
    if q.res.Err? then Fail(q)
    else if Holds(q.res.value) then Done(q, AlreadyAcquiring)
    else
      var c := Confirm(peer, q.remote, "StartAcquisition", IsAcquiring);
      var tail: Run<P, AcqStart> := if c.res.Err? then Fail(c)
        else Done(c, if Holds(c.res.value) then AcquisitionStarted else AcquisitionFailed);
      ThenFollows(q, tail, ["isAcquiring"], ["StartAcquisition", "isAcquiring"]);
      AnswerAppend(q.log, c.log, 0);
      AnswerAppend(q.log, c.log, 2);
      ThenReplays(peer, p, q, tail);
      Then(q, tail)
  }

  // ---- stop_acq ----

  /** What `stop_acq` prints. */
  datatype AcqStop = StillRecording | NotAcquiring | AcquisitionStopped | AcquisitionStopFailed

  /** The commands of `stop_acq` after the recording query. */
  function StopAcqRestScript(log: seq<Exchange>): seq<string>
  {
    ["isAcquiring"] + (if Yes(log, 0) then ["StopAcquisition", "isAcquiring"] else [])
  }

  /** The commands of `stop_acq` given the answers in its transcript. */
  function StopAcqScript(log: seq<Exchange>): seq<string>
  {
    ["isRecording"] + (if Yes(log, 0) then [] else StopAcqRestScript(Drop(log, 1)))
  }

  /** `stop_acq` once the recorder did not say it is recording. */
  function StopAcqRest<P(!new)>(peer: Peer<P>, p: P): (r: Run<P, AcqStop>)
    ensures Follows(r, StopAcqRestScript(r.log))
    ensures r.res.Ok? ==>
      r.res.value != StillRecording
      && (r.res.value == NotAcquiring <==> !Yes(r.log, 0))
      && (r.res.value == AcquisitionStopped <==> Yes(r.log, 0) && !Yes(r.log, 2))
    ensures Answers(peer) ==> r.res.Ok?
    ensures Replays(peer, p, r)
  {
    var a := Query(peer, p, IsAcquiring);
    if a.res.Err? then Fail(a)
    else if !Holds(a.res.value) then Done(a, NotAcquiring)
    else
      var c := Confirm(peer, a.remote, "StopAcquisition", IsAcquiring);
      var tail: Run<P, AcqStop> := if c.res.Err? then Fail(c)
        else Done(c, if !Holds(c.res.value) then AcquisitionStopped else AcquisitionStopFailed);
      ThenFollows(a, tail, ["isAcquiring"], ["StopAcquisition", "isAcquiring"]);
      AnswerAppend(a.log, c.log, 0);
      AnswerAppend(a.log, c.log, 2);
      ThenReplays(peer, p, a, tail);
      Then(a, tail)
  }

  /** `stop_acq`: refuse while recording, report when not acquiring, and
      otherwise stop acquisition and query again to confirm. */
  function StopAcq<P(!new)>(peer: Peer<P>, p: P): (r: Run<P, AcqStop>)
    ensures Follows(r, StopAcqScript(r.log))
    ensures r.res.Ok? ==>
      (r.res.value == StillRecording <==> Yes(r.log, 0))
      && (r.res.value == NotAcquiring <==> !Yes(r.log, 0) && !Yes(r.log, 1))
      && (r.res.value == AcquisitionStopped <==> !Yes(r.log, 0) && Yes(r.log, 1) && !Yes(r.log, 3))
    ensures Answers(peer) ==> r.res.Ok?
    ensures Replays(peer, p, r)
  {
    var q := Query(peer, p, IsRecording);
    if q.res.Err? then Fail(q)
    else if Holds(q.res.value) then Done(q, StillRecording)
    else
      var rest := StopAcqRest(peer, q.remote);
      ThenFollows(q, rest, ["isRecording"], StopAcqRestScript(rest.log));
      AnswerAppend(q.log, rest.log, 0);
      AnswerAppend(q.log, rest.log, 1);
      AnswerAppend(q.log, rest.log, 3);
      DropAppend(q.log, rest.log);
      ThenReplays(peer, p, q, rest);
      Then(q, rest)
  }

  // ---- stop_rec ----

  /** What `stop_rec` prints. */
  datatype RecStop = NotRecording | RecordingStopped | RecordingStopFailed

  /** The commands of `stop_rec` given the answers in its transcript. */
  function StopRecScript(log: seq<Exchange>): seq<string>
  {
    ["isRecording"] + (if Yes(log, 0) then ["StopRecord", "isRecording"] else [])
  }

  /** `stop_rec`: stop recording only if the recorder says it is recording,
      then query again to confirm. */
  function StopRec<P(!new)>(peer: Peer<P>, p: P): (r: Run<P, RecStop>)
    ensures Follows(r, StopRecScript(r.log))
    ensures r.res.Ok? ==>
      (r.res.value == NotRecording <==> !Yes(r.log, 0))
      && (r.res.value == RecordingStopped <==> Yes(r.log, 0) && !Yes(r.log, 2))
    ensures Answers(peer) ==> r.res.Ok?
    ensures Replays(peer, p, r)
  {
    var q := Query(peer, p, IsRecording);
    if q.res.Err? then Fail(q)
    else if !Holds(q.res.value) then Done(q, NotRecording)
    else
      var c := Confirm(peer, q.remote, "StopRecord", IsRecording);
      var tail: Run<P, RecStop> := if c.res.Err? then Fail(c)
        else Done(c, if !Holds(c.res.value) then RecordingStopped else RecordingStopFailed);
      ThenFollows(q, tail, ["isRecording"], ["StopRecord", "isRecording"]);
      AnswerAppend(q.log, c.log, 0);
      AnswerAppend(q.log, c.log, 2);
      ThenReplays(peer, p, q, tail);
      Then(q, tail)
  }

  // ---- start_rec ----

  /** `get_rec_path`: ask for the recording path. */
  function GetRecPath<P(!new)>(peer: Peer<P>, p: P): (r: Run<P, string>)
    ensures Follows(r, ["GetRecordingPath"])
    ensures r.res.Ok? ==> r.log == [Exchange("GetRecordingPath", r.res.value)]
    ensures Replays(peer, p, r)
    ensures Answers(peer) ==> r.res.Ok?
    ensures r.res.Ok? <==> peer(p, "GetRecordingPath").1.Some?
    ensures r.res.Ok? ==> r.res.value == peer(p, "GetRecordingPath").1.value
  {
    SendReplays(peer, p, "GetRecordingPath");
    Send(peer, p, "GetRecordingPath")
  }

  /** The transcript ends with a `GetRecordingPath` request. */
  predicate PathRequested(log: seq<Exchange>)
  {
    |log| > 0 && log[|log| - 1].cmd == "GetRecordingPath"
  }

  /** The transcript ends with the start-record line, a recording query
      answered true, and the path request that follows it. */
  predicate Confirmed(log: seq<Exchange>, line: string)
  {
    |log| >= 3 && log[|log| - 3].cmd == line && log[|log| - 2].cmd == "isRecording"
    && Yes(log, |log| - 2) && log[|log| - 1].cmd == "GetRecordingPath"
  }

  lemma EndingAppend(a: seq<Exchange>, b: seq<Exchange>, line: string)
    requires |b| > 0
    ensures PathRequested(a + b) <==> PathRequested(b)
    ensures Confirmed(b, line) ==> Confirmed(a + b, line)
  {
    var n := |a + b|;
    assert (a + b)[n - 1] == b[|b| - 1];
    if Confirmed(b, line) {
      assert (a + b)[n - 2] == b[|b| - 2];
      assert (a + b)[n - 3] == b[|b| - 3];
    }
  }
  /** A run that ends well keeps its deciding answers after any earlier
      exchanges. */
  lemma ThenEnding<P, T, U>(a: Run<P, T>, b: Run<P, U>, line: string)
    requires b.res.Ok? ==> |b.log| > 0
    ensures b.res.Ok? ==> (PathRequested(Then(a, b).log) <==> PathRequested(b.log))
    ensures b.res.Ok? && Confirmed(b.log, line) ==> Confirmed(Then(a, b).log, line)
  {
    if b.res.Ok? {
      EndingAppend(a.log, b.log, line);
    }
  }


  /** The commands from the start-record line on. */
  function BeginScript(log: seq<Exchange>, line: string): seq<string>
  {
    [line, "isRecording"] + (if Yes(log, 1) then ["GetRecordingPath"] else [])
  }

  /** Send the start-record line and confirm; ask for the path when recording. */
  function Begin<P(!new)>(peer: Peer<P>, p: P, line: string): (r: Run<P, bool>)
    ensures Follows(r, BeginScript(r.log, line))
    ensures r.res.Ok? ==> (r.res.value <==> PathRequested(r.log))
    ensures r.res == Ok(true) ==> Confirmed(r.log, line)
    ensures Replays(peer, p, r)
    ensures Answers(peer) ==> r.res.Ok?
  {
    var c := Confirm(peer, p, line, IsRecording);
    if c.res.Err? then Fail(c)
    else if !Holds(c.res.value) then Done(c, false)
    else
      var g := GetRecPath(peer, c.remote);
      var tail: Run<P, bool> := if g.res.Err? then Fail(g) else Done(g, true);
      ThenFollows(c, tail, [line, "isRecording"], ["GetRecordingPath"]);
      AnswerAppend(c.log, g.log, 1);
      ThenReplays(peer, p, c, tail);
      Then(c, tail)
  }

  /** The commands from the query that follows `start_acq` on. */
  function AcqConfirmedScript(log: seq<Exchange>, line: string): seq<string>
  {
    ["isAcquiring"] + (if Yes(log, 0) then BeginScript(Drop(log, 1), line) else [])
  }

  /** After `start_acq`: start recording only if the recorder now says it is
      acquiring. */
  function AcqConfirmed<P(!new)>(peer: Peer<P>, p: P, line: string): (r: Run<P, bool>)
    ensures Follows(r, AcqConfirmedScript(r.log, line))
    ensures r.res.Ok? ==> (r.res.value <==> PathRequested(r.log))
    ensures r.res == Ok(true) ==> Confirmed(r.log, line)
    ensures Replays(peer, p, r)
    ensures Answers(peer) ==> r.res.Ok?
  {
    var a := Query(peer, p, IsAcquiring);
    if a.res.Err? then Fail(a)
    else if !Holds(a.res.value) then Done(a, false)
    else
      var b := Begin(peer, a.remote, line);
      ThenFollows(a, b, ["isAcquiring"], BeginScript(b.log, line));
      AnswerAppend(a.log, b.log, 0);
      DropAppend(a.log, b.log);
      ThenReplays(peer, p, a, b);
      ThenEnding(a, b, line); Then(a, b)
  }

  /** The commands from `start_acq` on. */
  function AfterAcqScript(log: seq<Exchange>, line: string): seq<string>
  {
    var head := StartAcqScript(log);
    head + AcqConfirmedScript(Drop(log, |head|), line)
  }

  /** The recorder did not say it was acquiring: `start_acq`, then confirm. */
  function AfterAcq<P(!new)>(peer: Peer<P>, p: P, line: string): (r: Run<P, bool>)
    ensures Follows(r, AfterAcqScript(r.log, line))
    ensures r.res.Ok? ==> (r.res.value <==> PathRequested(r.log))
    ensures r.res == Ok(true) ==> Confirmed(r.log, line)
    ensures Replays(peer, p, r)
    ensures Answers(peer) ==> r.res.Ok?
  {
    var sa := StartAcq(peer, p);
    if sa.res.Err? then Fail(sa)
    else
      var b := AcqConfirmed(peer, sa.remote, line);
      ThenFollows(sa, b, StartAcqScript(sa.log), AcqConfirmedScript(b.log, line));
      AnswerAppend(sa.log, b.log, 0);
      DropAppend(sa.log, b.log);
      ThenReplays(peer, p, sa, b);
      ThenEnding(sa, b, line); Then(sa, b)
  }

  /** The commands from the acquisition query on. */
  function UnlessRecordingScript(log: seq<Exchange>, line: string): seq<string>
  {
    ["isAcquiring"]
    + (if Yes(log, 0) then BeginScript(Drop(log, 1), line) else AfterAcqScript(Drop(log, 1), line))
  }

  /** The recorder did not say it was recording: start recording at once
      when it says it is acquiring, else start acquisition first. */
  function StartRecUnlessRecording<P(!new)>(peer: Peer<P>, p: P, line: string): (r: Run<P, bool>)
    ensures Follows(r, UnlessRecordingScript(r.log, line))
    ensures r.res.Ok? ==> (r.res.value <==> PathRequested(r.log))
    ensures r.res == Ok(true) ==> Confirmed(r.log, line)
    ensures Replays(peer, p, r)
    ensures Answers(peer) ==> r.res.Ok?
  {
    var a := Query(peer, p, IsAcquiring);
    if a.res.Err? then Fail(a)
    else
      var b := if Holds(a.res.value) then Begin(peer, a.remote, line) else AfterAcq(peer, a.remote, line);
      ThenFollows(a, b, ["isAcquiring"],
        if Holds(a.res.value) then BeginScript(b.log, line) else AfterAcqScript(b.log, line));
      AnswerAppend(a.log, b.log, 0);
      DropAppend(a.log, b.log);
      ThenReplays(peer, p, a, b);
      ThenEnding(a, b, line); Then(a, b)
  }

  /** The commands of `start_rec` given the answers in its transcript. */
  function StartRecScript(log: seq<Exchange>, line: string): seq<string>
  {
    ["isRecording"] + (if Yes(log, 0) then [] else UnlessRecordingScript(Drop(log, 1), line))
  }

  /** `start_rec(rec_par)`: nothing when the recorder says it is recording;
      otherwise make sure it acquires, send the start-record line for the
      options, and confirm. The result is true exactly when the run ends
      with a recording query answered true after the line, followed by the
      path request; it is false whenever the recorder said at once that it
      was recording. */
  function StartRec<P(!new)>(peer: Peer<P>, p: P, opts: RecordOptions): (r: Run<P, bool>)
    ensures Follows(r, StartRecScript(r.log, RecordLine(opts)))
    ensures r.res.Ok? ==> (r.res.value <==> PathRequested(r.log))
    ensures r.res == Ok(true) ==> Confirmed(r.log, RecordLine(opts))
    ensures Yes(r.log, 0) ==> r.res == Ok(false) && Sent(r) == ["isRecording"]
    ensures Replays(peer, p, r)
    ensures Answers(peer) ==> r.res.Ok?
  {
    var line := RecordLine(opts);
    var q := Query(peer, p, IsRecording);
    if q.res.Err? then Fail(q)
    else if Holds(q.res.value) then Done(q, false)
    else
      var b := StartRecUnlessRecording(peer, q.remote, line);
      ThenFollows(q, b, ["isRecording"], UnlessRecordingScript(b.log, line));
      AnswerAppend(q.log, b.log, 0);
      DropAppend(q.log, b.log);
      ThenReplays(peer, p, q, b);
      ThenEnding(q, b, line); Then(q, b)
  }

  // ---- break_rec ----

  /** What `break_rec` prints; the method itself returns nothing. */
  datatype Break = NothingToBreak | BreakStopFailed | RecordingRestarted | RestartFailed

  /** The commands of `break_rec` once the recorder said it is recording. */
  function BreakRestScript(log: seq<Exchange>): seq<string>
  {
    ["StopRecord", "isRecording"] + (if Yes(log, 1) then [] else ["StartRecord", "isRecording"])
  }

  /** The commands of `break_rec` given the answers in its transcript. */
  function BreakRecScript(log: seq<Exchange>): seq<string>
  {
    ["isRecording"] + (if Yes(log, 0) then BreakRestScript(Drop(log, 1)) else [])
  }

  /** Stop the recording, and open a new one with the bare `StartRecord`
      only when the recorder no longer says it is recording. */
  function BreakRest<P(!new)>(peer: Peer<P>, p: P): (r: Run<P, Break>)
    ensures Follows(r, BreakRestScript(r.log))
    ensures r.res.Ok? ==>
      r.res.value != NothingToBreak
      && (r.res.value == BreakStopFailed <==> Yes(r.log, 1))
      && (r.res.value == RecordingRestarted <==> !Yes(r.log, 1) && Yes(r.log, 3))
    ensures Replays(peer, p, r)
    ensures Answers(peer) ==> r.res.Ok?
  {
    var c := Confirm(peer, p, "StopRecord", IsRecording);
    if c.res.Err? then Fail(c)
    else if Holds(c.res.value) then Done(c, BreakStopFailed)
    else
      var c2 := Confirm(peer, c.remote, "StartRecord", IsRecording);
      var tail: Run<P, Break> := if c2.res.Err? then Fail(c2)
        else Done(c2, if Holds(c2.res.value) then RecordingRestarted else RestartFailed);
      ThenFollows(c, tail, ["StopRecord", "isRecording"], ["StartRecord", "isRecording"]);
      AnswerAppend(c.log, c2.log, 1);
      AnswerAppend(c.log, c2.log, 3);
      ThenReplays(peer, p, c, tail);
      Then(c, tail)
  }

  /** `break_rec`: when the recorder says it is recording, stop and restart
      the recording. */
  function BreakRec<P(!new)>(peer: Peer<P>, p: P): (r: Run<P, Break>)
    ensures Follows(r, BreakRecScript(r.log))
    ensures r.res.Ok? ==>
      (r.res.value == NothingToBreak <==> !Yes(r.log, 0))
      && (r.res.value == RecordingRestarted <==> Yes(r.log, 0) && !Yes(r.log, 2) && Yes(r.log, 4))
    ensures Replays(peer, p, r)
    ensures Answers(peer) ==> r.res.Ok?
  {
    var q := Query(peer, p, IsRecording);
    if q.res.Err? then Fail(q)
    else if !Holds(q.res.value) then Done(q, NothingToBreak)
    else
      var b := BreakRest(peer, q.remote);
      ThenFollows(q, b, ["isRecording"], BreakRestScript(b.log));
      AnswerAppend(q.log, b.log, 0);
      AnswerAppend(q.log, b.log, 2);
      AnswerAppend(q.log, b.log, 4);
      DropAppend(q.log, b.log);
      ThenReplays(peer, p, q, b);
      Then(q, b)
  }

  // ---- close ----

  /** The commands of `close` given the answers in its transcript:
      `stop_rec`'s, then `stop_acq`'s. */
  function CloseScript(log: seq<Exchange>): seq<string>
  {
    var head := StopRecScript(log);
    head + StopAcqScript(Drop(log, |head|))
  }

  /** `close`: `stop_rec`, then `stop_acq`; the socket teardown is not
      modelled. The result is what each of the two printed. */
  function Close<P(!new)>(peer: Peer<P>, p: P): (r: Run<P, (RecStop, AcqStop)>)
    ensures Follows(r, CloseScript(r.log))
    ensures Answers(peer) ==> r.res.Ok?
    ensures Replays(peer, p, r)
  {
    var sr := StopRec(peer, p);
    if sr.res.Err? then Fail(sr)
    else
      var sa := StopAcq(peer, sr.remote);
      var tail: Run<P, (RecStop, AcqStop)> := if sa.res.Err? then Fail(sa) else Done(sa, (sr.res.value, sa.res.value));
      ThenFollows(sr, tail, StopRecScript(sr.log), StopAcqScript(sa.log));
      AnswerAppend(sr.log, sa.log, 0);
      DropAppend(sr.log, sa.log);
      ThenReplays(peer, p, sr, tail);
      Then(sr, tail)
  }

  // ---- guards ----

  /** `start_acq` asks for `StartAcquisition` exactly when its query did
      not answer true; an unknown answer counts as not acquiring. */
  lemma StartAcqGuard(log: seq<Exchange>)
    ensures "StartAcquisition" in StartAcqScript(log) <==> !Yes(log, 0)
  {
    if !Yes(log, 0) {
      assert StartAcqScript(log)[1] == "StartAcquisition";
    }
  }

  /** `stop_acq` asks for `StopAcquisition` exactly when the recording query
      did not answer true and the acquiring query did. */
  lemma StopAcqGuard(log: seq<Exchange>)
    ensures "StopAcquisition" in StopAcqScript(log) <==> !Yes(log, 0) && Yes(log, 1)
  {
    if |log| > 0 {
      AnswerAppend(log[..1], Drop(log, 1), 1);
      assert log[..1] + Drop(log, 1) == log;
    }
    if !Yes(log, 0) && Yes(log, 1) {
      assert StopAcqScript(log)[2] == "StopAcquisition";
    }
  }

  /** `stop_rec` asks for `StopRecord` exactly when its query answered true. */
  lemma StopRecGuard(log: seq<Exchange>)
    ensures "StopRecord" in StopRecScript(log) <==> Yes(log, 0)
  {
    if Yes(log, 0) {
      assert StopRecScript(log)[1] == "StopRecord";
    }
  }

  /** `close` never stops acquisition before it stops recording: every
      `StopRecord` it sends precedes every `StopAcquisition`. */
  lemma CloseStopsRecordingFirst(log: seq<Exchange>)
    ensures var s := CloseScript(log);
      forall i, j :: 0 <= i < |s| && 0 <= j < |s| && s[i] == "StopRecord" && s[j] == "StopAcquisition" ==> i < j
  {
    var head := StopRecScript(log);
    var tail := StopAcqScript(Drop(log, |head|));
    var s := CloseScript(log);
    assert "StopAcquisition" !in head;
    assert "StopRecord" !in tail;
    assert forall k :: 0 <= k < |head| ==> s[k] == head[k];
    assert forall k :: |head| <= k < |s| ==> s[k] == tail[k - |head|];
  }

  /** `close` sends `StopAcquisition` only after the recorder said, after
      `stop_rec`, that it was not recording but acquiring. */
  lemma CloseStopsAcquisitionWhenNotRecording(log: seq<Exchange>)
    ensures var head := StopRecScript(log);
      "StopAcquisition" in CloseScript(log) ==> !Yes(log, |head|) && Yes(log, |head| + 1)
  {
    var head := StopRecScript(log);
    var tail := Drop(log, |head|);
    if "StopAcquisition" in CloseScript(log) {
      assert "StopAcquisition" !in head;
      assert "StopAcquisition" in StopAcqScript(tail);
      StopAcqGuard(tail);
      if |head| <= |log| {
        AnswerAppend(log[..|head|], tail, |head|);
        AnswerAppend(log[..|head|], tail, |head| + 1);
        assert log[..|head|] + tail == log;
      }
    }
  }
}

=== FILE: reference_recorder.dfy ===
/** A reference recording controller that answers every query truthfully
    and moves between idle, acquiring and recording the way the commands
    say, never timing out. Against it the client operations achieve what
    their names promise. */
module ReferenceRecorder {
  import opened Outcomes
  import opened CommandLine
  import opened Rig
  import opened Recorder

  datatype Phase = Idle | Acquiring | Recording

  /** A command beginning with `StartRecord`, with or without options. */
  predicate StartsRecording(cmd: string)
  {
    |cmd| >= 11 && cmd[..11] == "StartRecord"
  }

  /** The reference recorder's step: queries answer `1`/`0` truthfully,
      recording needs acquisition, stopping acquisition also ends any
      recording, and other commands (stimulus events, the path request)
      change nothing. It always replies. */
  function Honest(ph: Phase, cmd: string): (next: (Phase, Option<string>))
    ensures next.1.Some?
  {
    if cmd == "isAcquiring" then (ph, Some(if ph == Idle then "0" else "1"))
    else if cmd == "isRecording" then (ph, Some(if ph == Recording then "1" else "0"))
    else if cmd == "StartAcquisition" then (if ph == Idle then Acquiring else ph, Some("StartedAcquisition"))
    else if cmd == "StopAcquisition" then (Idle, Some("StoppedAcquisition"))
    else if cmd == "StopRecord" then (if ph == Recording then Acquiring else ph, Some("StoppedRecording"))
    else if StartsRecording(cmd) then (if ph == Idle then Idle else Recording, Some("StartedRecording"))
    else (ph, Some(""))
  }

  /** The true answer to a status query in a phase. */
  predicate Truth(ph: Phase, q: Status)
  {
    match q
    case IsRecording => ph == Recording
    case IsAcquiring => ph != Idle
  }

  lemma QueryReference(ph: Phase, q: Status)
    ensures var r := Query(Honest, ph, q);
      r.res == Ok(Some(Truth(ph, q))) && r.remote == ph && Sent(r) == [QueryCommand(q)]
  {
  }

  lemma ConfirmReference(ph: Phase, cmd: string, q: Status)
    ensures var r := Confirm(Honest, ph, cmd, q);
      var next := Honest(ph, cmd).0;
      r.res == Ok(Some(Truth(next, q))) && r.remote == next && Sent(r) == [cmd, QueryCommand(q)]
  {
    QueryReference(Honest(ph, cmd).0, q);
  }

  lemma StartRecordStep(ph: Phase, line: string)
    requires StartsRecording(line)
    ensures Honest(ph, line).0 == if ph == Idle then Idle else Recording
  {
    assert line[0] == line[..11][0] == 'S';
    assert line[2] == line[..11][2] == 'a';
    assert line[5] == line[..11][5] == 'R';
  }

  lemma StartAcqReference(ph: Phase)
    ensures var r := StartAcq(Honest, ph);
      r.res == Ok(if ph == Idle then AcquisitionStarted else AlreadyAcquiring)
      && r.remote == (if ph == Idle then Acquiring else ph)
  {
    QueryReference(ph, IsAcquiring);
    if ph == Idle {
      ConfirmReference(Idle, "StartAcquisition", IsAcquiring);
    }
  }

  /** A second `start_acq` only asks, and changes nothing. */
  lemma StartAcqIdempotent(ph: Phase)
    ensures var r1 := StartAcq(Honest, ph);
      var r2 := StartAcq(Honest, r1.remote);
      Sent(r2) == ["isAcquiring"] && r2.remote == r1.remote && r2.res == Ok(AlreadyAcquiring)
  {
    StartAcqReference(ph);
  }

  /** The part of `stop_acq` after the recording query: stop acquisition
      when it is running. */
  lemma StopAcqRestReference(ph: Phase)
    requires ph != Recording
    ensures var r := StopAcqRest(Honest, ph);
      r.res == Ok(if ph == Acquiring then AcquisitionStopped else NotAcquiring)
      && r.remote == Idle
  {
    QueryReference(ph, IsAcquiring);
    if ph == Acquiring {
      ConfirmReference(Acquiring, "StopAcquisition", IsAcquiring);
      var a := Query(Honest, ph, IsAcquiring);
      var c := Confirm(Honest, Acquiring, "StopAcquisition", IsAcquiring);
      var tail: Run<Phase, AcqStop> := Done(c, AcquisitionStopped);
      assert StopAcqRest(Honest, ph) == Then(a, tail);
    }
  }

  lemma StopAcqReference(ph: Phase)
    ensures var r := StopAcq(Honest, ph);
      r.res == Ok(match ph
                  case Recording => StillRecording
                  case Acquiring => AcquisitionStopped
                  case Idle => NotAcquiring)
      && r.remote == (if ph == Recording then Recording else Idle)
  {
    QueryReference(ph, IsRecording);
    if ph != Recording {
      var q := Query(Honest, ph, IsRecording);
      var rest := StopAcqRest(Honest, ph);
      StopAcqRestReference(ph);
      assert StopAcq(Honest, ph) == Then(q, rest);
    }
  }

  lemma StopRecReference(ph: Phase)
    ensures var r := StopRec(Honest, ph);
      r.res == Ok(if ph == Recording then RecordingStopped else NotRecording)
      && r.remote == (if ph == Recording then Acquiring else ph)
  {
    QueryReference(ph, IsRecording);
    if ph == Recording {
      ConfirmReference(Recording, "StopRecord", IsRecording);
    }
  }

  lemma BeginReference(ph: Phase, line: string)
    requires StartsRecording(line) && ph != Idle
    ensures var r := Begin(Honest, ph, line);
      r.res == Ok(true) && r.remote == Recording
  {
    StartRecordStep(ph, line);
    ConfirmReference(ph, line, IsRecording);
  }

  lemma AcqConfirmedReference(line: string)
    requires StartsRecording(line)
    ensures var r := AcqConfirmed(Honest, Acquiring, line);
      r.res == Ok(true) && r.remote == Recording
  {
    QueryReference(Acquiring, IsAcquiring);
    BeginReference(Acquiring, line);
  }

  lemma UnlessRecordingReference(ph: Phase, line: string)
    requires StartsRecording(line) && ph != Recording
    ensures var r := StartRecUnlessRecording(Honest, ph, line);
      r.res == Ok(true) && r.remote == Recording
  {
    QueryReference(ph, IsAcquiring);
    if ph == Idle {
      StartAcqReference(Idle);
      AcqConfirmedReference(line);
    } else {
      BeginReference(ph, line);
    }
  }

  /** From any phase `start_rec` ends with the recorder recording; it
      reports a new recording unless one was already running. */
  lemma StartRecReference(ph: Phase, opts: RecordOptions)
    ensures var r := StartRec(Honest, ph, opts);
      r.res == Ok(ph != Recording) && r.remote == Recording
  {
    var line := RecordLine(opts);
    RecordLineVerb(opts);
    QueryReference(ph, IsRecording);
    if ph != Recording {
      UnlessRecordingReference(ph, line);
    }
  }

  lemma BreakRestReference()
    ensures var r := BreakRest(Honest, Recording);
      r.res == Ok(RecordingRestarted) && r.remote == Recording
      && Sent(r) == ["StopRecord", "isRecording", "StartRecord", "isRecording"]
  {
    ConfirmReference(Recording, "StopRecord", IsRecording);
    assert StartsRecording("StartRecord");
    StartRecordStep(Acquiring, "StartRecord");
    ConfirmReference(Acquiring, "StartRecord", IsRecording);
  }

  /** `break_rec` stops and restarts a running recording, and leaves any
      other phase alone after one query. */
  lemma BreakRecReference(ph: Phase)
    ensures var r := BreakRec(Honest, ph);
      if ph == Recording then
        r.res == Ok(RecordingRestarted) && r.remote == Recording
        && Sent(r) == ["isRecording", "StopRecord", "isRecording", "StartRecord", "isRecording"]
      else
        r.res == Ok(NothingToBreak) && r.remote == ph && Sent(r) == ["isRecording"]
  {
    QueryReference(ph, IsRecording);
    if ph == Recording {
      var q := Query(Honest, ph, IsRecording);
      var b := BreakRest(Honest, Recording);
      BreakRestReference();
      assert BreakRec(Honest, ph) == Then(q, b);
      CommandsAppend(q.log, b.log);
      assert Sent(Then(q, b)) == Sent(q) + Sent(b);
    }
  }

  /** `close` always leaves the recorder idle. */
  lemma CloseReference(ph: Phase)
    ensures var r := Close(Honest, ph);
      r.res.Ok? && r.remote == Idle
  {
    StopRecReference(ph);
    var sr := StopRec(Honest, ph);
    StopAcqReference(sr.remote);
  }
}

=== FILE: rig.dfy ===
/** What the session controller shares with its two remote peers, the
    recording controller and the trial executor: each is reached over a
    request/reply socket, so every command is one exchange that either
    carries the peer's reply or ends in a receive timeout. A peer is modelled
    as a step function from its own state and the command to its next state
    and reply (`None` for a timeout). */
module Rig {
  import opened Outcomes

  /** One request/reply exchange that got its reply. */
  datatype Exchange = Exchange(cmd: string, reply: string)

  /** A remote peer: its state and a command give its next state and its
      reply, or `None` when no reply reaches the caller in time. */
  type Peer<!P> = (P, string) -> (P, Option<string>)

  /** A receive timeout raises out of `send_command`: the command that got
      no reply. */
  datatype TimedOut = TimedOut(cmd: string)

  /** The outcome of a client operation: the peer's state afterwards, the
      exchanges the operation completed in order, and its result or the
      timeout that ended it. */
  datatype Run<P, T> = Run(remote: P, log: seq<Exchange>, res: Result<T, TimedOut>)

  /** The commands of a transcript, in order. */
  function Commands(log: seq<Exchange>): (cmds: seq<string>)
    ensures |cmds| == |log|
  {
    seq(|log|, i requires 0 <= i < |log| => log[i].cmd)
  }

  /** Every command a run sent: the answered ones, then the one that timed out. */
  function Sent<P, T>(r: Run<P, T>): seq<string>
  {
    Commands(r.log) + (if r.res.Err? then [r.res.error.cmd] else [])
  }

  /** The peer replies to every command in every state. */
  ghost predicate Answers<P(!new)>(peer: Peer<P>)
  {
    forall p: P, cmd: string :: peer(p, cmd).1.Some?
  }

  /** The peer's state after it has been sent `cmds` in order. */
  function Feed<P>(peer: Peer<P>, p: P, cmds: seq<string>): P
  {
    if |cmds| == 0 then p else peer(Feed(peer, p, cmds[..|cmds| - 1]), cmds[|cmds| - 1]).0
  }

  /** `send_command(cmd)`: send, then block on the reply. */
  function Send<P(!new)>(peer: Peer<P>, p: P, cmd: string): (r: Run<P, string>)
    ensures Sent(r) == [cmd]
    ensures r.remote == peer(p, cmd).0
    ensures r.res.Ok? <==> peer(p, cmd).1.Some?
    ensures r.res.Ok? ==> r.log == [Exchange(cmd, r.res.value)] && r.res.value == peer(p, cmd).1.value
    ensures r.res.Err? ==> r.log == []
    ensures Answers(peer) ==> r.res.Ok?
  {
    var (q, reply) := peer(p, cmd);
    match reply
    case Some(text) => Run(q, [Exchange(cmd, text)], Ok(text))
    case None => Run(q, [], Err(TimedOut(cmd)))
  }

  /** What `peer`, from state `p`, does with `cmds` sent one after another:
      each command gets the reply of the state the earlier ones left it in,
      and the first command without a reply ends the conversation with its
      timeout. */
  function Converse<P>(peer: Peer<P>, p: P, cmds: seq<string>): (r: Run<P, ()>)
  {
    if |cmds| == 0 then Run(p, [], Ok(()))
    else
      var step := peer(p, cmds[0]);
      if step.1.None? then Run(step.0, [], Err(TimedOut(cmds[0])))
      else
        var rest := Converse(peer, step.0, cmds[1..]);
        Run(rest.remote, [Exchange(cmds[0], step.1.value)] + rest.log, rest.res)
  }

  /** A conversation sends the commands in order: all of them when every
      one got a reply, otherwise a prefix ending in the one that did not. */
  lemma {:induction false} ConverseSends<P>(peer: Peer<P>, p: P, cmds: seq<string>)
    ensures var r := Converse(peer, p, cmds);
      (r.res.Ok? ==> Commands(r.log) == cmds) && (r.res.Err? ==> Sent(r) <= cmds)
  {
    if |cmds| > 0 {
      var step := peer(p, cmds[0]);
      if step.1.Some? {
        ConverseSends(peer, step.0, cmds[1..]);
        var rest := Converse(peer, step.0, cmds[1..]);
        CommandsAppend([Exchange(cmds[0], step.1.value)], rest.log);
        assert cmds == [cmds[0]] + cmds[1..];
      }
    }
  }

  /** The run is what `peer`, from state `p`, does with the commands the run
      sent: the same replies, the same final state, and a timeout exactly
      where the peer gave no reply. */
  ghost predicate Replays<P, T>(peer: Peer<P>, p: P, r: Run<P, T>)
  {
    var d := Converse(peer, p, Sent(r));
    r.remote == d.remote && r.log == d.log && (r.res.Err? <==> d.res.Err?)
  }

  /** A conversation that got every reply can be continued: sending `s2`
      afterwards gives both transcripts and the second result. */
  lemma {:induction false} ConverseAppend<P>(peer: Peer<P>, p: P, s1: seq<string>, s2: seq<string>)
    requires Converse(peer, p, s1).res.Ok?
    ensures var d1 := Converse(peer, p, s1);
      var d2 := Converse(peer, d1.remote, s2);
      Converse(peer, p, s1 + s2) == Run(d2.remote, d1.log + d2.log, d2.res)
  {
    if |s1| == 0 {
      assert s1 + s2 == s2;
    } else {
      var step := peer(p, s1[0]);
      assert (s1 + s2)[0] == s1[0];
      assert (s1 + s2)[1..] == s1[1..] + s2;
      ConverseAppend(peer, step.0, s1[1..], s2);
      var rest1 := Converse(peer, step.0, s1[1..]);
      var d2 := Converse(peer, rest1.remote, s2);
      var e := Exchange(s1[0], step.1.value);
      assert [e] + (rest1.log + d2.log) == ([e] + rest1.log) + d2.log;
    }
  }

  /** Run `b` after `a`: both transcripts, `b`'s result. */
  function Then<P, T, U>(a: Run<P, T>, b: Run<P, U>): Run<P, U>
  {
    Run(b.remote, a.log + b.log, b.res)
  }

  /** Stop with the timeout that ended `a`. */
  function Fail<P, T, U>(a: Run<P, T>): Run<P, U>
    requires a.res.Err?
  {
    Run(a.remote, a.log, Err(a.res.error))
  }

  /** Finish with `v` after `a` completed. */
  function Done<P, T, U>(a: Run<P, T>, v: U): Run<P, U>
  {
    Run(a.remote, a.log, Ok(v))
  }

  /** `send_command` is the one-command conversation. */
  lemma SendReplays<P(!new)>(peer: Peer<P>, p: P, cmd: string)
    ensures Replays(peer, p, Send(peer, p, cmd))
  {
    var r := Send(peer, p, cmd);
    assert Sent(r) == [cmd];
    assert [cmd][1..] == [];
  }

  /** Running `b` from where a completed `a` left the peer continues `a`'s
      conversation. */
  lemma ThenReplays<P, T, U>(peer: Peer<P>, p: P, a: Run<P, T>, b: Run<P, U>)
    requires a.res.Ok? && Replays(peer, p, a) && Replays(peer, a.remote, b)
    ensures Replays(peer, p, Then(a, b))
  {
    CommandsAppend(a.log, b.log);
    assert Sent(Then(a, b)) == Commands(a.log) + Sent(b);
    assert Sent(a) == Commands(a.log);
    ConverseAppend(peer, p, Commands(a.log), Sent(b));
  }

  /** Concatenation regroups freely. */
  lemma AppendAssoc<T>(a: seq<T>, b: seq<T>, c: seq<T>)
    ensures (a + b) + c == a + (b + c)
  {
    assert |(a + b) + c| == |a + (b + c)|;
    forall i | 0 <= i < |a + b + c|
      ensures ((a + b) + c)[i] == (a + (b + c))[i]
    {
    }
  }

  /** The commands `f(0)`, ..., `f(k - 1)`, in order. */
  function Each(f: nat -> string, k: nat): (cmds: seq<string>)
    ensures |cmds| == k
  {
    if k == 0 then [] else Each(f, k - 1) + [f(k - 1)]
  }

  /** A peer that command `f(i)` moves from `at(i)` to `at(i + 1)` ends,
      fed the first `k` of them from `at(0)`, at `at(k)`. */
  lemma {:induction false} FeedFollows<P>(peer: Peer<P>, f: nat -> string, k: nat, at: nat -> P)
    requires forall i :: 0 <= i < k ==> peer(at(i), f(i)).0 == at(i + 1)
    ensures Feed(peer, at(0), Each(f, k)) == at(k)
  {
    if k > 0 {
      FeedFollows(peer, f, k - 1, at);
      assert Each(f, k)[..k - 1] == Each(f, k - 1);
    }
  }

  /** Feeding a command and then others is feeding the others to the state
      the first one left. */
  lemma {:induction false} FeedFirst<P>(peer: Peer<P>, p: P, c: string, cmds: seq<string>)
    ensures Feed(peer, p, [c] + cmds) == Feed(peer, peer(p, c).0, cmds)
    decreases |cmds|
  {
    if |cmds| == 0 {
      assert [c] + cmds == [c];
      assert [c][..0] == [];
    } else {
      var n := |cmds|;
      assert ([c] + cmds)[..n] == [c] + cmds[..n - 1];
      FeedFirst(peer, p, c, cmds[..n - 1]);
    }
  }

  /** Where a conversation leaves the peer, and why it stopped. */
  lemma {:induction false} ConverseFeed<P>(peer: Peer<P>, p: P, cmds: seq<string>)
    ensures var d := Converse(peer, p, cmds);
      (d.res.Ok? ==> d.remote == Feed(peer, p, cmds))
      && (d.res.Err? ==>
            d.remote == Feed(peer, p, Commands(d.log) + [d.res.error.cmd])
            && peer(Feed(peer, p, Commands(d.log)), d.res.error.cmd).1.None?)
  {
    if |cmds| > 0 {
      var step := peer(p, cmds[0]);
      if step.1.None? {
        assert Commands([]) + [cmds[0]] == [cmds[0]] + [];
        FeedFirst(peer, p, cmds[0], []);
      } else {
        var rest := Converse(peer, step.0, cmds[1..]);
        ConverseFeed(peer, step.0, cmds[1..]);
        ConverseStep(peer, p, cmds, rest);
      }
    }
  }

  /** The inductive step of `ConverseFeed`, once the first command has had
      its reply. */
  lemma ConverseStep<P>(peer: Peer<P>, p: P, cmds: seq<string>, rest: Run<P, ()>)
    requires |cmds| > 0 && peer(p, cmds[0]).1.Some?
    requires rest == Converse(peer, peer(p, cmds[0]).0, cmds[1..])
    requires rest.res.Ok? ==> rest.remote == Feed(peer, peer(p, cmds[0]).0, cmds[1..])
    requires rest.res.Err? ==>
      rest.remote == Feed(peer, peer(p, cmds[0]).0, Commands(rest.log) + [rest.res.error.cmd])
      && peer(Feed(peer, peer(p, cmds[0]).0, Commands(rest.log)), rest.res.error.cmd).1.None?
    ensures var d := Converse(peer, p, cmds);
      (d.res.Ok? ==> d.remote == Feed(peer, p, cmds))
      && (d.res.Err? ==>
            d.remote == Feed(peer, p, Commands(d.log) + [d.res.error.cmd])
            && peer(Feed(peer, p, Commands(d.log)), d.res.error.cmd).1.None?)
  {
    var d := Converse(peer, p, cmds);
    var e := Exchange(cmds[0], peer(p, cmds[0]).1.value);
    assert d.log == [e] + rest.log && d.res == rest.res && d.remote == rest.remote;
    if rest.res.Ok? {
      assert cmds == [cmds[0]] + cmds[1..];
      FeedFirst(peer, p, cmds[0], cmds[1..]);
    } else {
      var x := rest.res.error.cmd;
      CommandsAppend([e], rest.log);
      assert Commands([e]) == [cmds[0]];
      assert Commands(d.log) == [cmds[0]] + Commands(rest.log);
      assert Commands(d.log) + [x] == [cmds[0]] + (Commands(rest.log) + [x]);
      FeedFirst(peer, p, cmds[0], Commands(rest.log) + [x]);
      FeedFirst(peer, p, cmds[0], Commands(rest.log));
    }
  }

  /** Exchange `i` of a conversation carries command `i` and the reply of
      the state the commands before it left the peer in. */
  lemma {:induction false} ConverseReply<P>(peer: Peer<P>, p: P, cmds: seq<string>, i: nat)
    requires i < |Converse(peer, p, cmds).log|
    ensures i < |cmds|
    ensures Converse(peer, p, cmds).log[i].cmd == cmds[i]
    ensures peer(Feed(peer, p, cmds[..i]), cmds[i]).1 == Some(Converse(peer, p, cmds).log[i].reply)
  {
    var step := peer(p, cmds[0]);
    if i > 0 {
      ConverseReply(peer, step.0, cmds[1..], i - 1);
      assert cmds[..i] == [cmds[0]] + cmds[1..][..i - 1];
      FeedFirst(peer, p, cmds[0], cmds[1..][..i - 1]);
    } else {
      assert cmds[..0] == [];
    }
  }

  /** What `Replays` says, exchange by exchange: every logged reply is the
      peer's reply in the state the earlier commands left it in, the peer
      ends in the state all the commands sent lead to, and a timeout is the
      peer not replying to the last command. */
  lemma ReplaysMeans<P, T>(peer: Peer<P>, p: P, r: Run<P, T>)
    requires Replays(peer, p, r)
    ensures r.remote == Feed(peer, p, Sent(r))
    ensures r.res.Err? ==> peer(Feed(peer, p, Commands(r.log)), r.res.error.cmd).1.None?
    ensures forall i :: 0 <= i < |r.log| ==>
      peer(Feed(peer, p, Commands(r.log)[..i]), r.log[i].cmd).1 == Some(r.log[i].reply)
  {
    var d := Converse(peer, p, Sent(r));
    ConverseFeed(peer, p, Sent(r));
    ConverseSends(peer, p, Sent(r));
    if r.res.Err? {
      assert Sent(d) == Commands(d.log) + [d.res.error.cmd];
      assert |Sent(d)| == |Sent(r)|;
      assert d.res.error.cmd == Sent(d)[|Sent(d)| - 1] == Sent(r)[|Sent(r)| - 1] == r.res.error.cmd;
    }
    forall i | 0 <= i < |r.log|
      ensures peer(Feed(peer, p, Commands(r.log)[..i]), r.log[i].cmd).1 == Some(r.log[i].reply)
    {
      ConverseReply(peer, p, Sent(r), i);
      assert Sent(r)[..i] == Commands(r.log)[..i];
    }
  }

  lemma CommandsAppend(a: seq<Exchange>, b: seq<Exchange>)
    ensures Commands(a + b) == Commands(a) + Commands(b)
  {
  }

  /** The run kept to `script`: it sent all of it and got every reply, or it
      sent a prefix of it and stopped at the first timeout. */
  predicate Follows<P, T>(r: Run<P, T>, script: seq<string>)
  {
    (r.res.Ok? ==> Sent(r) == script) && (r.res.Err? ==> Sent(r) <= script)
  }

  /** A completed run followed by one that keeps to `s2` keeps to `s1 + s2`. */
  lemma ThenFollows<P, T, U>(a: Run<P, T>, b: Run<P, U>, s1: seq<string>, s2: seq<string>)
    requires a.res.Ok? && Commands(a.log) == s1
    requires Follows(b, s2)
    ensures Follows(Then(a, b), s1 + s2)
  {
    CommandsAppend(a.log, b.log);
    assert Sent(Then(a, b)) == s1 + Sent(b);
  }

  /** A run that stopped at a timeout keeps to any script it is a prefix of. */
  lemma FailFollows<P, T, U>(a: Run<P, T>, script: seq<string>)
    requires Follows(a, script) && a.res.Err?
    ensures Follows(Fail<P, T, U>(a), script)
  {
  }
}

=== FILE: scheduler.dfy ===
/** The session controller's block runner: opening a block on the recording
    controller, the worker loops of a block (`block_thread_task`) and of a
    search (`search_thread_task`), and the controls that steer them while
    they run. Everything the worker reads from the rest of the program at
    the top of an iteration — the stop flag, the interval mode, the repeat
    toggle and the random draws — comes from an oracle `ticks`. */
module Scheduler {
  import opened Outcomes
  import opened Text
  import opened CommandLine
  import opened Rig
  import opened Recorder
  import opened Executor
  import opened Server
  import opened TrialOrder
  import opened ReferenceRecorder

  /** Where the executor keeps the stimuli. */
  const PiStimulusDir := "/home/pi/stimuli/"

  /** `os.path.join('/home/pi/stimuli/', name)` for the file name of `file`:
      the executor's copy of a stimulus. */
  function PiPath(file: string): string
  {
    PiStimulusDir + Basename(file)
  }

  /** The executor's copy lies directly in the stimulus directory and has
      the name of the original. */
  lemma PiPathKeepsName(file: string)
    ensures var path := PiPath(file);
      |path| >= |PiStimulusDir| && path[..|PiStimulusDir|] == PiStimulusDir
      && '/' !in path[|PiStimulusDir|..]
      && Basename(path) == Basename(file)
  {
    var path := PiPath(file);
    BasenameIsLastComponent(file);
    BasenameAfterDirectory(PiStimulusDir, Basename(file));
    assert path[|PiStimulusDir|..] == Basename(file);
  }

  /** The interval settings fixed when the block starts: the range for
      random intervals and the fixed interval, in seconds. */
  datatype Timing = Timing(itiMin: real, itiMax: real, itiFixed: real)

  /** What the worker reads at the top of one iteration: whether the run
      flag is still set, whether intervals are random, the uniform draw
      `u`, whether the stimulus is repeated, and the stimulus draw. */
  datatype Tick = Tick(running: bool, randomIti: bool, u: real, repeat: bool, pick: nat)

  /** The stop flag was set at the top of each of the first `n` iterations. */
  predicate RunningBefore(ticks: nat -> Tick, n: nat)
  {
    forall k: nat :: k < n ==> ticks(k).running
  }

  lemma RunningOneMore(ticks: nat -> Tick, n: nat)
    requires RunningBefore(ticks, n) && ticks(n).running
    ensures RunningBefore(ticks, n + 1)
  {
  }

  /** An iteration that finds the flag cleared is not among the first `n`. */
  lemma ClearedNotBefore(ticks: nat -> Tick, n: nat)
    requires RunningBefore(ticks, n)
    ensures forall k: nat :: !ticks(k).running ==> n <= k
  {
  }

  /** The interval after a trial: `(max - min) * u + min` when random, the
      fixed interval otherwise. */
  function Iti(t: Timing, tick: Tick): real
  {
    if tick.randomIti then (t.itiMax - t.itiMin) * tick.u + t.itiMin else t.itiFixed
  }

  /** With a sensible range and a draw in [0, 1), a random interval lies in
      [min, max], and below max unless the range is a single point. */
  lemma ItiWithinRange(t: Timing, tick: Tick)
    requires tick.randomIti && t.itiMin <= t.itiMax && 0.0 <= tick.u < 1.0
    ensures t.itiMin <= Iti(t, tick) <= t.itiMax
    ensures t.itiMin < t.itiMax ==> Iti(t, tick) < t.itiMax
  {
    var w := t.itiMax - t.itiMin;
    var x := w * tick.u;
    ProductBelow(w, tick.u);
    assert Iti(t, tick) == x + t.itiMin;
  }

  lemma ProductBelow(w: real, u: real)
    requires 0.0 <= w && 0.0 <= u < 1.0
    ensures 0.0 <= w * u <= w
    ensures 0.0 < w ==> w * u < w
  {
    assert w - w * u == w * (1.0 - u);
  }

  /** One thing the worker did: a command to the recording controller, a
      command to the executor, or a pause. */
  datatype Action = ToRecorder(cmd: string) | ToExecutor(cmd: string) | Slept(secs: real)

  /** Why a worker ended early: a peer did not answer in time, `np.tile`
      refused a negative repeat count, there was no first stimulus, or
      `time.sleep` refused a negative interval. */
  datatype Abort =
    | RecorderTimeout(cmd: string)
    | ExecutorTimeout(cmd: string)
    | NegativeRepeats(reps: int)
    | NoStimuli
    | NegativeSleep(secs: real)

  /** How a worker ended: it cleaned up and set the status label; it raised;
      or, for a search, it was still running after the modelled iterations. */
  datatype Ending = Finished(status: string) | Aborted(reason: Abort) | StillRunning

  /** The actions of one trial: the stimulus name to the recording
      controller, the trial to the executor, then the interval. */
  function TrialActions(file: string, number: int, iti: real): (acts: seq<Action>)
    ensures |acts| == 3
  {
    [ToRecorder("stim " + file), ToExecutor(TrialLine(PiPath(file), number)), Slept(iti)]
  }

  /** How many of a trial's actions happened before it raised: the
      stimulus command alone when the recording controller timed out, and
      the executor's trial line as well otherwise. */
  function Reached(a: Abort): nat
  {
    if a.RecorderTimeout? then 1 else 2
  }

  /** Commands to the recording controller as actions. */
  function ToRecorderAll(cmds: seq<string>): (acts: seq<Action>)
    ensures |acts| == |cmds|
    ensures forall i :: 0 <= i < |cmds| ==> acts[i] == ToRecorder(cmds[i])
  {
    if |cmds| == 0 then [] else [ToRecorder(cmds[0])] + ToRecorderAll(cmds[1..])
  }

  /** A prefix of the commands gives a prefix of the actions. */
  lemma ToRecorderPrefix(a: seq<string>, b: seq<string>)
    requires a <= b
    ensures ToRecorderAll(a) <= ToRecorderAll(b)
  {
    assert ToRecorderAll(b)[..|a|] == ToRecorderAll(a);
  }

  /** Why a trial of `file` under trial number `number` raised, with the
      recording controller in state `cur` and the executor in state `ex`
      when it began: the controller did not answer the stimulus command,
      the executor in that state did not answer the trial line, or the
      interval was negative. */
  ghost predicate Caused<P(!new), Q(!new)>(recorder: Peer<P>, cur: P, executor: Peer<Q>, ex: Q,
                                          file: string, number: int, iti: real, a: Abort)
  {
    && (a.RecorderTimeout? || a.ExecutorTimeout? || a.NegativeSleep?)
    && (a.RecorderTimeout? ==> a.cmd == "stim " + file && recorder(cur, a.cmd).1.None?)
    && (a.ExecutorTimeout? ==>
          a.cmd == TrialLine(PiPath(file), number) && executor(ex, a.cmd).1.None? && !Answers(executor))
    && (a.NegativeSleep? ==> a.secs == iti && iti < 0.0)
  }

  /** One trial: tell the recording controller the stimulus, start the
      trial on the executor, then sleep. A timeout or a negative interval
      raises and ends the trial where it happened: the recorder's timeout
      before the executor is contacted, the executor's before the sleep. */
  method PlayTrial<P(!new), Q(!new)>(recorder: Peer<P>, rec: P, executor: Peer<Q>, pi: Q,
                                     file: string, number: int, iti: real)
    returns (rec': P, pi': Q, acts: seq<Action>, abort: Option<Abort>)
    ensures var s := Send(recorder, rec, "stim " + file);
      var t := Send(executor, pi, TrialLine(PiPath(file), number));
      rec' == s.remote
      && pi' == (if s.res.Ok? then t.remote else pi)
      && (abort.None? <==> s.res.Ok? && t.res.Ok? && iti >= 0.0)
      && (abort == Some(RecorderTimeout("stim " + file)) <==> s.res.Err?)
      && (abort == Some(ExecutorTimeout(TrialLine(PiPath(file), number))) <==> s.res.Ok? && t.res.Err?)
      && (abort == Some(NegativeSleep(iti)) <==> s.res.Ok? && t.res.Ok? && iti < 0.0)
    ensures abort.None? ==> acts == TrialActions(file, number, iti)
    ensures abort.Some? ==> acts < TrialActions(file, number, iti)
    ensures abort.Some? && abort.value.RecorderTimeout? ==> |acts| == 1
    ensures abort.Some? && !abort.value.RecorderTimeout? ==> |acts| == 2
  {
    var all := TrialActions(file, number, iti);
    var s := Send(recorder, rec, "stim " + file);
    rec', pi' := s.remote, pi;
    if s.res.Err? {
      return rec', pi', all[..1], Some(RecorderTimeout("stim " + file));
    }
    var t := StartTrial(executor, pi, PiPath(file), number);
    pi' := t.remote;
    if t.res.Err? {
      return rec', pi', all[..2], Some(ExecutorTimeout(TrialLine(PiPath(file), number)));
    }
    if iti < 0.0 {
      return rec', pi', all[..2], Some(NegativeSleep(iti));
    }
    acts, abort := all, None;
  }

  /** `PlayTrial` as the worker loops see it: each way the trial can end,
      stated by the peer reply or the interval that caused it. */
  method TrialStep<P(!new), Q(!new)>(recorder: Peer<P>, rec: P, executor: Peer<Q>, pi: Q,
                                     file: string, number: int, iti: real)
    returns (rec': P, pi': Q, acts: seq<Action>, abort: Option<Abort>)
    ensures abort.None? ==>
      acts == TrialActions(file, number, iti) && rec' == recorder(rec, "stim " + file).0
      && pi' == executor(pi, TrialLine(PiPath(file), number)).0
    ensures abort.Some? ==> acts < TrialActions(file, number, iti)
    ensures abort.Some? ==> acts == TrialActions(file, number, iti)[..Reached(abort.value)]
    ensures abort.Some? ==> Caused(recorder, rec, executor, pi, file, number, iti, abort.value)
    ensures Answers(recorder) && Answers(executor) && iti >= 0.0 ==> abort.None?
  {
    rec', pi', acts, abort := PlayTrial(recorder, rec, executor, pi, file, number, iti);
  }

  /** `close()` at the end of a run: `stop_rec`, then `stop_acq`; a timeout
      raises out of it. A recorder that always answers lets it finish. */
  method Teardown<P(!new)>(recorder: Peer<P>, rec: P) returns (rec': P, acts: seq<Action>, log: seq<Exchange>, timeout: Option<string>)
    ensures var c := Close(recorder, rec);
      rec' == c.remote && log == c.log && acts == ToRecorderAll(Sent(c))
      && (timeout.Some? <==> c.res.Err?)
      && (timeout.Some? ==> timeout.value == c.res.error.cmd)
    ensures timeout.None? ==> acts == ToRecorderAll(CloseScript(log))
    ensures timeout.Some? ==>
      acts <= ToRecorderAll(CloseScript(log)) && |acts| > 0 && acts[|acts| - 1] == ToRecorder(timeout.value)
    ensures Answers(recorder) ==> timeout.None?
  {
    var r := Close(recorder, rec);
    rec', log := r.remote, r.log;
    acts := ToRecorderAll(Sent(r));
    if r.res.Err? {
      timeout := Some(r.res.error.cmd);
      ToRecorderPrefix(Sent(r), CloseScript(log));
    } else {
      timeout := None;
    }
  }

  /** The commands `start_block` sends to the recording controller given
      the answers: `start_acq`'s, then `start_rec`'s with the block's
      options. */
  function OpenBlockScript(log: seq<Exchange>, blockPath: string): seq<string>
  {
    var head := StartAcqScript(log);
    head + StartRecScript(Drop(log, |head|), RecordLine(BlockRecordOptions(blockPath)))
  }

  /** The recording part of `start_block`: `start_acq()`, then `start_rec`
      with `CreateNewDir=0` and the block's directory; the results are only
      printed. */
  function OpenBlock<P(!new)>(recorder: Peer<P>, rec: P, blockPath: string): (r: Run<P, (AcqStart, bool)>)
    ensures Follows(r, OpenBlockScript(r.log, blockPath))
    ensures Replays(recorder, rec, r)
    ensures Answers(recorder) ==> r.res.Ok?
  {
    var sa := StartAcq(recorder, rec);
    if sa.res.Err? then Fail(sa)
    else
      var opts := BlockRecordOptions(blockPath);
      var sr := StartRec(recorder, sa.remote, opts);
      var tail: Run<P, (AcqStart, bool)> := if sr.res.Err? then Fail(sr) else Done(sr, (sa.res.value, sr.res.value));
      ThenFollows(sa, tail, StartAcqScript(sa.log), StartRecScript(sr.log, RecordLine(opts)));
      AnswerAppend(sa.log, sr.log, 0);
      DropAppend(sa.log, sr.log);
      ThenReplays(recorder, rec, sa, tail);
      Then(sa, tail)
  }

  /** Against a recorder that does what it is told, opening a block always
      leaves it recording; recording is reported as newly started unless it
      was already running. */
  lemma OpenBlockReference(ph: Phase, blockPath: string)
    ensures var r := OpenBlock(Honest, ph, blockPath);
      r.remote == Recording
      && r.res == Ok((if ph == Idle then AcquisitionStarted else AlreadyAcquiring, ph != Recording))
  {
    StartAcqReference(ph);
    var sa := StartAcq(Honest, ph);
    StartRecReference(sa.remote, BlockRecordOptions(blockPath));
  }

  // ---- block ----

  /** Trial `j` of a block plays stimulus `order[j]` under trial number `j`. */
  function BlockTrial(stimuli: seq<string>, order: seq<nat>, timing: Timing, ticks: nat -> Tick, j: nat): seq<Action>
    requires j < |order| && order[j] < |stimuli|
  {
    TrialActions(stimuli[order[j]], j, Iti(timing, ticks(j)))
  }

  /** The actions of the first `k` trials of a block in `order`. */
  function BlockTrials(stimuli: seq<string>, order: seq<nat>, timing: Timing, ticks: nat -> Tick, k: nat): seq<Action>
    requires k <= |order|
    requires forall i :: 0 <= i < |order| ==> order[i] < |stimuli|
  {
    if k == 0 then []
    else
      var before := BlockTrials(stimuli, order, timing, ticks, k - 1);
      before + BlockTrial(stimuli, order, timing, ticks, k - 1)
  }

  /** The commands the recording controller receives during the first `k`
      trials of a block: the name of each stimulus. */
  function BlockStims(stimuli: seq<string>, order: seq<nat>, k: nat): (cmds: seq<string>)
    requires k <= |order|
    requires forall i :: 0 <= i < |order| ==> order[i] < |stimuli|
    ensures |cmds| == k
  {
    if k == 0 then [] else BlockStims(stimuli, order, k - 1) + ["stim " + stimuli[order[k - 1]]]
  }

  /** Trial `i`'s line to the executor in a block: the executor's copy of
      the stimulus the order puts at `i`, and the number `i`. */
  function BlockLine(stimuli: seq<string>, order: seq<nat>): nat -> string
  {
    (i: nat) => if i < |order| && order[i] < |stimuli| then TrialLine(PiPath(stimuli[order[i]]), i) else ""
  }

  /** The trial lines the executor receives during the first `k` trials of
      a block. */
  function BlockLines(stimuli: seq<string>, order: seq<nat>, k: nat): seq<string>
  {
    Each(BlockLine(stimuli, order), k)
  }

  /** Appending the three actions of trial `n` to those of trials `0..n-1`
      keeps trial `j` in its place, and puts trial `n` after them. */
  lemma AppendTrial(before: seq<Action>, last: seq<Action>, n: nat, j: nat)
    requires |before| == 3 * n && |last| == 3 && j <= n
    ensures (before + last)[3 * j..3 * j + 3] == if j < n then before[3 * j..3 * j + 3] else last
  {
    if j < n {
      assert before[3 * j..3 * j + 3] == before[..3 * n][3 * j..3 * j + 3];
    }
  }

  lemma {:induction false} BlockTrialsLength(stimuli: seq<string>, order: seq<nat>, timing: Timing, ticks: nat -> Tick, k: nat)
    requires k <= |order|
    requires forall i :: 0 <= i < |order| ==> order[i] < |stimuli|
    ensures |BlockTrials(stimuli, order, timing, ticks, k)| == 3 * k
  {
    if k > 0 {
      BlockTrialsLength(stimuli, order, timing, ticks, k - 1);
    }
  }

  lemma {:induction false} BlockTrialAt(stimuli: seq<string>, order: seq<nat>, timing: Timing, ticks: nat -> Tick, k: nat, j: nat)
    requires j < k <= |order|
    requires forall i :: 0 <= i < |order| ==> order[i] < |stimuli|
    ensures |BlockTrials(stimuli, order, timing, ticks, k)| == 3 * k
    ensures BlockTrials(stimuli, order, timing, ticks, k)[3 * j..3 * j + 3] == BlockTrial(stimuli, order, timing, ticks, j)
  {
    var before := BlockTrials(stimuli, order, timing, ticks, k - 1);
    var last := BlockTrial(stimuli, order, timing, ticks, k - 1);
    BlockTrialsLength(stimuli, order, timing, ticks, k - 1);
    AppendTrial(before, last, k - 1, j);
    if j < k - 1 {
      BlockTrialAt(stimuli, order, timing, ticks, k - 1, j);
    }
  }

  /** Trial `j` of a block occupies actions `3j` to `3j + 2`, so trials are
      played in order with consecutive 0-based numbers. */
  lemma BlockTrialsLayout(stimuli: seq<string>, order: seq<nat>, timing: Timing, ticks: nat -> Tick, k: nat)
    requires k <= |order|
    requires forall i :: 0 <= i < |order| ==> order[i] < |stimuli|
    ensures |BlockTrials(stimuli, order, timing, ticks, k)| == 3 * k
    ensures forall j :: 0 <= j < k ==>
      BlockTrials(stimuli, order, timing, ticks, k)[3 * j..3 * j + 3] == BlockTrial(stimuli, order, timing, ticks, j)
  {
    BlockTrialsLength(stimuli, order, timing, ticks, k);
    forall j | 0 <= j < k
      ensures BlockTrials(stimuli, order, timing, ticks, k)[3 * j..3 * j + 3] == BlockTrial(stimuli, order, timing, ticks, j)
    {
      BlockTrialAt(stimuli, order, timing, ticks, k, j);
    }
  }

  /** Appending to a common front keeps a prefix relation. */
  lemma PrefixAfter(a: seq<Action>, b: seq<Action>, c: seq<Action>)
    requires b <= c
    ensures a + b <= a + c
    ensures b < c ==> a + b < a + c
  {
    assert (a + c)[..|a + b|] == a + b;
  }

  /** Trial `done` of a block, begun with the recording controller in
      state `cur` and the executor in state `ex`, raised with `a`: the
      actions are those of the earlier trials and the part of this one that
      happened. */
  ghost predicate BlockBroke<P(!new), Q(!new)>(recorder: Peer<P>, cur: P, executor: Peer<Q>, ex: Q,
                                              stimuli: seq<string>, order: seq<nat>, timing: Timing, ticks: nat -> Tick,
                                              done: nat, trace: seq<Action>, a: Abort)
    requires forall i :: 0 <= i < |order| ==> order[i] < |stimuli|
    requires done < |order|
  {
    && trace == BlockTrials(stimuli, order, timing, ticks, done) + BlockTrial(stimuli, order, timing, ticks, done)[..Reached(a)]
    && Caused(recorder, cur, executor, ex, stimuli[order[done]], done, Iti(timing, ticks(done)), a)
  }

  /** A block trial that raised lies between the trials before it and the
      full trial. */
  lemma BlockBrokeWithin<P(!new), Q(!new)>(recorder: Peer<P>, cur: P, executor: Peer<Q>, ex: Q,
                                          stimuli: seq<string>, order: seq<nat>, timing: Timing, ticks: nat -> Tick,
                                          done: nat, trace: seq<Action>, a: Abort)
    requires forall i :: 0 <= i < |order| ==> order[i] < |stimuli|
    requires done < |order|
    requires BlockBroke(recorder, cur, executor, ex, stimuli, order, timing, ticks, done, trace, a)
    ensures BlockTrials(stimuli, order, timing, ticks, done) <= trace < BlockTrials(stimuli, order, timing, ticks, done + 1)
  {
    var trial := BlockTrial(stimuli, order, timing, ticks, done);
    PrefixAfter(BlockTrials(stimuli, order, timing, ticks, done), [], trial[..Reached(a)]);
    PrefixAfter(BlockTrials(stimuli, order, timing, ticks, done), trial[..Reached(a)], trial);
  }

  /** Trial `done` of a block: play stimulus `order[done]`, extending the
      actions so far. */
  method BlockStep<P(!new), Q(!new)>(recorder: Peer<P>, rec: P, cur: P, executor: Peer<Q>, pi: Q, ex: Q,
                         stimuli: seq<string>, order: seq<nat>, timing: Timing, ticks: nat -> Tick,
                         done: nat, trace: seq<Action>)
    returns (rec': P, ex': Q, trace': seq<Action>, abort: Option<Abort>)
    requires forall i :: 0 <= i < |order| ==> order[i] < |stimuli|
    requires done < |order|
    requires trace == BlockTrials(stimuli, order, timing, ticks, done)
    requires cur == Feed(recorder, rec, BlockStims(stimuli, order, done))
    requires ex == Feed(executor, pi, BlockLines(stimuli, order, done))
    ensures abort.None? ==>
      trace' == BlockTrials(stimuli, order, timing, ticks, done + 1)
      && rec' == Feed(recorder, rec, BlockStims(stimuli, order, done + 1))
      && ex' == Feed(executor, pi, BlockLines(stimuli, order, done + 1))
    ensures abort.Some? ==>
      BlockTrials(stimuli, order, timing, ticks, done) <= trace' < BlockTrials(stimuli, order, timing, ticks, done + 1)
    ensures abort.Some? ==>
      trace' == BlockTrials(stimuli, order, timing, ticks, done) + BlockTrial(stimuli, order, timing, ticks, done)[..Reached(abort.value)]
    ensures abort.Some? ==> BlockBroke(recorder, cur, executor, ex, stimuli, order, timing, ticks, done, trace', abort.value)
    ensures abort.Some? ==> abort.value.RecorderTimeout? || abort.value.ExecutorTimeout? || abort.value.NegativeSleep?
    ensures abort.Some? && abort.value.RecorderTimeout? ==>
      abort.value.cmd == "stim " + stimuli[order[done]] && recorder(cur, abort.value.cmd).1.None?
    ensures abort.Some? && abort.value.ExecutorTimeout? ==>
      abort.value.cmd == TrialLine(PiPath(stimuli[order[done]]), done) && executor(ex, abort.value.cmd).1.None?
      && !Answers(executor)
    ensures abort.Some? && abort.value.NegativeSleep? ==>
      abort.value.secs == Iti(timing, ticks(done)) && abort.value.secs < 0.0
    ensures Answers(recorder) && Answers(executor) && Iti(timing, ticks(done)) >= 0.0 ==> abort.None?
  {
    var acts;
    rec', ex', acts, abort := TrialStep(recorder, cur, executor, ex, stimuli[order[done]], done, Iti(timing, ticks(done)));
    var trial := BlockTrial(stimuli, order, timing, ticks, done);
    trace' := trace + acts;
    if abort.Some? {
      PrefixAfter(trace, [], acts);
      PrefixAfter(trace, acts, trial);
      return;
    }
    assert BlockStims(stimuli, order, done + 1)[..done] == BlockStims(stimuli, order, done);
    assert BlockLines(stimuli, order, done + 1)[..done] == BlockLines(stimuli, order, done);
  }

  /** The trials of `block_thread_task`'s loop: while trials remain and the
      flag is set at the top of the iteration, play the next one. A trial
      that raises ends the loop part-way through its actions. */
  method BlockLoop<P(!new), Q(!new)>(recorder: Peer<P>, rec: P, executor: Peer<Q>, pi: Q,
                         stimuli: seq<string>, order: seq<nat>, timing: Timing, ticks: nat -> Tick)
    returns (rec': P, pi': Q, trace: seq<Action>, done: nat, abort: Option<Abort>)
    requires forall i :: 0 <= i < |order| ==> order[i] < |stimuli|
    ensures done <= |order|
    ensures RunningBefore(ticks, done)
    ensures forall k: nat :: !ticks(k).running ==> done <= k
    ensures abort.None? ==>
      (done == |order| || !ticks(done).running) && trace == BlockTrials(stimuli, order, timing, ticks, done)
    ensures abort.Some? ==>
      done < |order| && ticks(done).running
      && BlockBroke(recorder, Feed(recorder, rec, BlockStims(stimuli, order, done)),
                    executor, Feed(executor, pi, BlockLines(stimuli, order, done)),
                    stimuli, order, timing, ticks, done, trace, abort.value)
    ensures abort.None? ==>
      rec' == Feed(recorder, rec, BlockStims(stimuli, order, done))
      && pi' == Feed(executor, pi, BlockLines(stimuli, order, done))
    ensures (Answers(recorder) && Answers(executor)
             && forall k: nat :: k < |order| ==> Iti(timing, ticks(k)) >= 0.0) ==> abort.None?
  {
    trace := [];
    done := 0;
    rec' := rec;
    pi' := pi;
    while done < |order| && ticks(done).running
      invariant done <= |order|
      invariant RunningBefore(ticks, done)
      invariant trace == BlockTrials(stimuli, order, timing, ticks, done)
      invariant rec' == Feed(recorder, rec, BlockStims(stimuli, order, done))
      invariant pi' == Feed(executor, pi, BlockLines(stimuli, order, done))
    {
      rec', pi', trace, abort := BlockStep(recorder, rec, rec', executor, pi, pi', stimuli, order, timing, ticks, done, trace);
      if abort.Some? {
        ClearedNotBefore(ticks, done);
        return;
      }
      RunningOneMore(ticks, done);
      done := done + 1;
    }
    ClearedNotBefore(ticks, done);
    abort := None;
  }

  /** `block_thread_task`: shuffle the tiled order, then run one trial per
      entry, checking the stop flag before each; then `close()` and the
      status `Block Finished`. Nothing is sent once the flag is seen
      cleared, and an exception ends the worker without `close()`. */
  method BlockThreadTask<P(!new), Q(!new)>(recorder: Peer<P>, rec: P, executor: Peer<Q>, pi: Q,
                               stimuli: seq<string>, reps: int, timing: Timing,
                               draws: nat -> nat, ticks: nat -> Tick)
    returns (order: seq<nat>, trace: seq<Action>, done: nat, closeLog: seq<Exchange>, ending: Ending)
    ensures reps < 0 && |stimuli| > 0 <==> ending == Aborted(NegativeRepeats(reps))
    ensures TileRaises(|stimuli|, reps) ==> trace == []
    ensures reps < 0 && |stimuli| == 0 ==> order == [] && done == 0
    ensures !TileRaises(|stimuli|, reps) ==> |order| == |stimuli| * reps
    ensures forall k: nat :: !TileRaises(|stimuli|, reps) ==> multiset(order)[k] == if k < |stimuli| then reps else 0
    ensures forall i :: 0 <= i < |order| ==> order[i] < |stimuli|
    ensures done <= |order|
    ensures forall k: nat :: k < done ==> ticks(k).running
    ensures BlockTrials(stimuli, order, timing, ticks, done) <= trace
    ensures !ending.StillRunning?
    ensures ending.Finished? ==>
      ending.status == "Block Finished"
      && (done == |order| || !ticks(done).running)
      && trace == BlockTrials(stimuli, order, timing, ticks, done) + ToRecorderAll(CloseScript(closeLog))
    ensures ending.Aborted? && !TileRaises(|stimuli|, reps) ==>
      (done < |order| && ticks(done).running && trace < BlockTrials(stimuli, order, timing, ticks, done + 1))
      || trace <= BlockTrials(stimuli, order, timing, ticks, done) + ToRecorderAll(CloseScript(closeLog))
    ensures ending.Aborted? && !TileRaises(|stimuli|, reps) && done < |order| && ticks(done).running ==>
      BlockBroke(recorder, Feed(recorder, rec, BlockStims(stimuli, order, done)),
                 executor, Feed(executor, pi, BlockLines(stimuli, order, done)),
                 stimuli, order, timing, ticks, done, trace, ending.reason)
    ensures ending.Aborted? && !TileRaises(|stimuli|, reps) && (done == |order| || !ticks(done).running) ==>
      var c := Close(recorder, Feed(recorder, rec, BlockStims(stimuli, order, done)));
      c.res.Err? && ending.reason == RecorderTimeout(c.res.error.cmd) && closeLog == c.log
      && trace == BlockTrials(stimuli, order, timing, ticks, done) + ToRecorderAll(Sent(c))
    ensures ending.Finished? ==>
      var c := Close(recorder, Feed(recorder, rec, BlockStims(stimuli, order, done)));
      c.res.Ok? && closeLog == c.log
    ensures ending.Aborted? && ending.reason.RecorderTimeout? ==> !Answers(recorder)
    ensures ending.Aborted? && ending.reason.ExecutorTimeout? ==> !Answers(executor)
    ensures ending.Aborted? && ending.reason.NegativeSleep? ==>
      done < |order| && ending.reason.secs == Iti(timing, ticks(done)) && ending.reason.secs < 0.0
    ensures (!TileRaises(|stimuli|, reps) && Answers(recorder) && Answers(executor)
             && forall k: nat :: Iti(timing, ticks(k)) >= 0.0) ==> ending == Finished("Block Finished")
  {
    closeLog := [];
    var o := BlockOrder(|stimuli|, reps, draws);
    if o.None? {
      return [], [], 0, [], Aborted(NegativeRepeats(reps));
    }
    order := o.value;
    var r, q, abort;
    r, q, trace, done, abort := BlockLoop(recorder, rec, executor, pi, stimuli, order, timing, ticks);
    if abort.Some? {
      BlockBrokeWithin(recorder, Feed(recorder, rec, BlockStims(stimuli, order, done)),
                       executor, Feed(executor, pi, BlockLines(stimuli, order, done)),
                       stimuli, order, timing, ticks, done, trace, abort.value);
      return order, trace, done, closeLog, Aborted(abort.value);
    }
    var acts, timeout;
    r, acts, closeLog, timeout := Teardown(recorder, r);
    PrefixAfter(trace, [], acts);
    if timeout.Some? {
      PrefixAfter(trace, acts, ToRecorderAll(CloseScript(closeLog)));
    }
    trace := trace + acts;
    ending := if timeout.Some? then Aborted(RecorderTimeout(timeout.value)) else Finished("Block Finished");
  }

  // ---- search ----

  /** The stimulus of search iteration `k`: a fresh draw from the stimuli
      unless the repeat toggle is on, in which case the previous one, which
      before the first iteration is the first stimulus. */
  function SearchFile(stimuli: seq<string>, ticks: nat -> Tick, k: nat): (file: string)
    requires |stimuli| > 0
    ensures file in stimuli
    ensures !ticks(k).repeat ==> file == stimuli[ticks(k).pick % |stimuli|]
  {
    if !ticks(k).repeat then stimuli[ticks(k).pick % |stimuli|]
    else if k == 0 then stimuli[0]
    else SearchFile(stimuli, ticks, k - 1)
  }

  /** With the repeat toggle on, a search plays what it played last. */
  lemma SearchRepeats(stimuli: seq<string>, ticks: nat -> Tick, k: nat)
    requires |stimuli| > 0 && ticks(k).repeat
    ensures SearchFile(stimuli, ticks, k) == if k == 0 then stimuli[0] else SearchFile(stimuli, ticks, k - 1)
  {
  }

  /** While the repeat toggle stays on, a search keeps its stimulus:
      iterations `i + 1` to `k` all play what iteration `i` played. */
  lemma {:induction false} SearchHoldsStimulus(stimuli: seq<string>, ticks: nat -> Tick, i: nat, k: nat)
    requires |stimuli| > 0 && i <= k
    requires forall j: nat :: i < j <= k ==> ticks(j).repeat
    ensures SearchFile(stimuli, ticks, k) == SearchFile(stimuli, ticks, i)
  {
    if k > i {
      SearchHoldsStimulus(stimuli, ticks, i, k - 1);
    }
  }

  /** The stimulus of every search iteration, as the worker picks it. */
  function Picks(stimuli: seq<string>, ticks: nat -> Tick): (file: nat -> string)
    requires |stimuli| > 0
    ensures forall k: nat :: file(k) == SearchFile(stimuli, ticks, k)
  {
    (k: nat) => SearchFile(stimuli, ticks, k)
  }

  /** Iteration `j` of a search runs trial number `j + 1` on the stimulus `file(j)`. */
  function SearchTrial(file: nat -> string, timing: Timing, ticks: nat -> Tick, j: nat): seq<Action>
  {
    TrialActions(file(j), j + 1, Iti(timing, ticks(j)))
  }

  /** The actions of the first `k` iterations of a search. */
  function SearchTrials(file: nat -> string, timing: Timing, ticks: nat -> Tick, k: nat): seq<Action>
  {
    if k == 0 then []
    else
      var before := SearchTrials(file, timing, ticks, k - 1);
      before + SearchTrial(file, timing, ticks, k - 1)
  }

  /** The commands the recording controller receives during the first `k`
      iterations of a search: the name of each stimulus. */
  function SearchStims(file: nat -> string, k: nat): (cmds: seq<string>)
    ensures |cmds| == k
  {
    if k == 0 then [] else SearchStims(file, k - 1) + ["stim " + file(k - 1)]
  }

  /** Iteration `i`'s line to the executor in a search: the executor's copy
      of the stimulus picked then, and the number `i + 1`. */
  function SearchLine(file: nat -> string): nat -> string
  {
    (i: nat) => TrialLine(PiPath(file(i)), i + 1)
  }

  /** The trial lines the executor receives during the first `k`
      iterations of a search. */
  function SearchLines(file: nat -> string, k: nat): seq<string>
  {
    Each(SearchLine(file), k)
  }

  lemma {:induction false} SearchTrialsLength(file: nat -> string, timing: Timing, ticks: nat -> Tick, k: nat)
    ensures |SearchTrials(file, timing, ticks, k)| == 3 * k
  {
    if k > 0 {
      SearchTrialsLength(file, timing, ticks, k - 1);
    }
  }

  lemma {:induction false} SearchTrialAt(file: nat -> string, timing: Timing, ticks: nat -> Tick, k: nat, j: nat)
    requires j < k
    ensures |SearchTrials(file, timing, ticks, k)| == 3 * k
    ensures SearchTrials(file, timing, ticks, k)[3 * j..3 * j + 3] == SearchTrial(file, timing, ticks, j)
  {
    var before := SearchTrials(file, timing, ticks, k - 1);
    var last := SearchTrial(file, timing, ticks, k - 1);
    SearchTrialsLength(file, timing, ticks, k - 1);
    AppendTrial(before, last, k - 1, j);
    if j < k - 1 {
      SearchTrialAt(file, timing, ticks, k - 1, j);
    }
  }

  /** Iteration `j` of a search occupies actions `3j` to `3j + 2`: trial
      numbers start at 1 and go up by one. */
  lemma SearchTrialsLayout(file: nat -> string, timing: Timing, ticks: nat -> Tick, k: nat)
    ensures |SearchTrials(file, timing, ticks, k)| == 3 * k
    ensures forall j :: 0 <= j < k ==>
      SearchTrials(file, timing, ticks, k)[3 * j..3 * j + 3] == SearchTrial(file, timing, ticks, j)
  {
    SearchTrialsLength(file, timing, ticks, k);
    forall j | 0 <= j < k
      ensures SearchTrials(file, timing, ticks, k)[3 * j..3 * j + 3] == SearchTrial(file, timing, ticks, j)
    {
      SearchTrialAt(file, timing, ticks, k, j);
    }
  }

  /** Iteration `done` of a search, begun with the recording controller in
      state `cur` and the executor in state `ex`, raised with `a`: the
      actions are those of the earlier iterations and the part of this one
      that happened. */
  ghost predicate SearchBroke<P(!new), Q(!new)>(recorder: Peer<P>, cur: P, executor: Peer<Q>, ex: Q,
                                               file: nat -> string, timing: Timing, ticks: nat -> Tick,
                                               done: nat, trace: seq<Action>, a: Abort)
  {
    && trace == SearchTrials(file, timing, ticks, done) + SearchTrial(file, timing, ticks, done)[..Reached(a)]
    && Caused(recorder, cur, executor, ex, file(done), done + 1, Iti(timing, ticks(done)), a)
  }

  /** A search iteration that raised lies between the iterations before it
      and the full iteration. */
  lemma SearchBrokeWithin<P(!new), Q(!new)>(recorder: Peer<P>, cur: P, executor: Peer<Q>, ex: Q,
                                           file: nat -> string, timing: Timing, ticks: nat -> Tick,
                                           done: nat, trace: seq<Action>, a: Abort)
    requires SearchBroke(recorder, cur, executor, ex, file, timing, ticks, done, trace, a)
    ensures SearchTrials(file, timing, ticks, done) <= trace < SearchTrials(file, timing, ticks, done + 1)
  {
    var trial := SearchTrial(file, timing, ticks, done);
    PrefixAfter(SearchTrials(file, timing, ticks, done), [], trial[..Reached(a)]);
    PrefixAfter(SearchTrials(file, timing, ticks, done), trial[..Reached(a)], trial);
  }

  /** Iteration `done` of a search: pick the stimulus and play trial
      number `done + 1`, extending the actions so far. */
  method SearchStep<P(!new), Q(!new)>(recorder: Peer<P>, rec: P, cur: P, executor: Peer<Q>, pi: Q, ex: Q,
                          file: nat -> string, timing: Timing, ticks: nat -> Tick, done: nat, trace: seq<Action>)
    returns (rec': P, ex': Q, trace': seq<Action>, abort: Option<Abort>)
    requires trace == SearchTrials(file, timing, ticks, done)
    requires cur == Feed(recorder, rec, SearchStims(file, done))
    requires ex == Feed(executor, pi, SearchLines(file, done))
    ensures abort.None? ==>
      trace' == SearchTrials(file, timing, ticks, done + 1)
      && rec' == Feed(recorder, rec, SearchStims(file, done + 1))
      && ex' == Feed(executor, pi, SearchLines(file, done + 1))
    ensures abort.Some? ==>
      SearchTrials(file, timing, ticks, done) <= trace' < SearchTrials(file, timing, ticks, done + 1)
    ensures abort.Some? ==>
      trace' == SearchTrials(file, timing, ticks, done) + SearchTrial(file, timing, ticks, done)[..Reached(abort.value)]
    ensures abort.Some? ==> SearchBroke(recorder, cur, executor, ex, file, timing, ticks, done, trace', abort.value)
    ensures abort.Some? ==> abort.value.RecorderTimeout? || abort.value.ExecutorTimeout? || abort.value.NegativeSleep?
    ensures abort.Some? && abort.value.RecorderTimeout? ==>
      abort.value.cmd == "stim " + file(done) && recorder(cur, abort.value.cmd).1.None?
    ensures abort.Some? && abort.value.ExecutorTimeout? ==>
      abort.value.cmd == TrialLine(PiPath(file(done)), done + 1) && executor(ex, abort.value.cmd).1.None?
      && !Answers(executor)
    ensures abort.Some? && abort.value.NegativeSleep? ==>
      abort.value.secs == Iti(timing, ticks(done)) && abort.value.secs < 0.0
    ensures Answers(recorder) && Answers(executor) && Iti(timing, ticks(done)) >= 0.0 ==> abort.None?
  {
    var acts;
    rec', ex', acts, abort := TrialStep(recorder, cur, executor, ex, file(done), done + 1, Iti(timing, ticks(done)));
    var trial := SearchTrial(file, timing, ticks, done);
    trace' := trace + acts;
    if abort.Some? {
      PrefixAfter(trace, [], acts);
      PrefixAfter(trace, acts, trial);
      return;
    }
    assert SearchStims(file, done + 1)[..done] == SearchStims(file, done);
    assert SearchLines(file, done + 1)[..done] == SearchLines(file, done);
  }

  /** The iterations of `search_thread_task`'s loop, at most `bound` of
      them: while the flag is set, pick the stimulus and play trial number
      `k + 1`. */
  method SearchLoop<P(!new), Q(!new)>(recorder: Peer<P>, rec: P, executor: Peer<Q>, pi: Q,
                          file: nat -> string, timing: Timing, ticks: nat -> Tick, bound: nat)
    returns (rec': P, pi': Q, trace: seq<Action>, done: nat, abort: Option<Abort>)
    ensures done <= bound
    ensures RunningBefore(ticks, done)
    ensures forall k: nat :: !ticks(k).running ==> done <= k
    ensures abort.None? ==>
      (done == bound || !ticks(done).running) && trace == SearchTrials(file, timing, ticks, done)
    ensures abort.Some? ==>
      done < bound && ticks(done).running
      && SearchBroke(recorder, Feed(recorder, rec, SearchStims(file, done)),
                     executor, Feed(executor, pi, SearchLines(file, done)),
                     file, timing, ticks, done, trace, abort.value)
    ensures abort.None? ==>
      rec' == Feed(recorder, rec, SearchStims(file, done))
      && pi' == Feed(executor, pi, SearchLines(file, done))
    ensures (Answers(recorder) && Answers(executor)
             && forall k: nat :: k < bound ==> Iti(timing, ticks(k)) >= 0.0) ==> abort.None?
  {
    trace := [];
    done := 0;
    rec' := rec;
    pi' := pi;
    while done < bound && ticks(done).running
      invariant done <= bound
      invariant RunningBefore(ticks, done)
      invariant trace == SearchTrials(file, timing, ticks, done)
      invariant rec' == Feed(recorder, rec, SearchStims(file, done))
      invariant pi' == Feed(executor, pi, SearchLines(file, done))
    {
      rec', pi', trace, abort := SearchStep(recorder, rec, rec', executor, pi, pi', file, timing, ticks, done, trace);
      if abort.Some? {
        ClearedNotBefore(ticks, done);
        return;
      }
      RunningOneMore(ticks, done);
      done := done + 1;
    }
    ClearedNotBefore(ticks, done);
    abort := None;
  }

  /** `search_thread_task` over at most `bound` iterations: while the flag
      is set, pick the stimulus, run the trial and sleep; then `close()` and
      the status `Search Finished`. Without stimuli, `stimuli[0]` raises
      before anything is sent. */
  method SearchThreadTask<P(!new), Q(!new)>(recorder: Peer<P>, rec: P, executor: Peer<Q>, pi: Q,
                                stimuli: seq<string>, timing: Timing, ticks: nat -> Tick, bound: nat)
    returns (trace: seq<Action>, done: nat, closeLog: seq<Exchange>, ending: Ending)
    ensures |stimuli| == 0 <==> ending == Aborted(NoStimuli)
    ensures |stimuli| == 0 ==> trace == []
    ensures done <= bound
    ensures forall k: nat :: k < done ==> ticks(k).running
    ensures |stimuli| > 0 ==> SearchTrials(Picks(stimuli, ticks), timing, ticks, done) <= trace
    ensures ending.StillRunning? ==>
      |stimuli| > 0 && done == bound && ticks(done).running && trace == SearchTrials(Picks(stimuli, ticks), timing, ticks, done)
    ensures ending.Finished? ==>
      |stimuli| > 0 && ending.status == "Search Finished"
      && !ticks(done).running
      && trace == SearchTrials(Picks(stimuli, ticks), timing, ticks, done) + ToRecorderAll(CloseScript(closeLog))
    ensures ending.Aborted? && |stimuli| > 0 ==>
      (ticks(done).running && trace < SearchTrials(Picks(stimuli, ticks), timing, ticks, done + 1))
      || (!ticks(done).running && trace <= SearchTrials(Picks(stimuli, ticks), timing, ticks, done) + ToRecorderAll(CloseScript(closeLog)))
    ensures ending.Aborted? && |stimuli| > 0 && ticks(done).running ==>
      SearchBroke(recorder, Feed(recorder, rec, SearchStims(Picks(stimuli, ticks), done)),
                  executor, Feed(executor, pi, SearchLines(Picks(stimuli, ticks), done)),
                  Picks(stimuli, ticks), timing, ticks, done, trace, ending.reason)
    ensures ending.Aborted? && |stimuli| > 0 && !ticks(done).running ==>
      var c := Close(recorder, Feed(recorder, rec, SearchStims(Picks(stimuli, ticks), done)));
      c.res.Err? && ending.reason == RecorderTimeout(c.res.error.cmd) && closeLog == c.log
      && trace == SearchTrials(Picks(stimuli, ticks), timing, ticks, done) + ToRecorderAll(Sent(c))
    ensures ending.Finished? ==>
      |stimuli| > 0
      && var c := Close(recorder, Feed(recorder, rec, SearchStims(Picks(stimuli, ticks), done)));
      c.res.Ok? && closeLog == c.log
    ensures ending.Aborted? && ending.reason.RecorderTimeout? ==> !Answers(recorder)
    ensures ending.Aborted? && ending.reason.ExecutorTimeout? ==> !Answers(executor)
    ensures ending.Aborted? && ending.reason.NegativeSleep? ==>
      done < bound && ending.reason.secs == Iti(timing, ticks(done)) && ending.reason.secs < 0.0
    ensures (|stimuli| > 0 && Answers(recorder) && Answers(executor)
             && forall k: nat :: Iti(timing, ticks(k)) >= 0.0) ==> ending == Finished("Search Finished") || ending.StillRunning?
  {
    closeLog := [];
    if |stimuli| == 0 {
      return [], 0, [], Aborted(NoStimuli);
    }
    var r, q, abort;
    r, q, trace, done, abort := SearchLoop(recorder, rec, executor, pi, Picks(stimuli, ticks), timing, ticks, bound);
    if abort.Some? {
      SearchBrokeWithin(recorder, Feed(recorder, rec, SearchStims(Picks(stimuli, ticks), done)),
                        executor, Feed(executor, pi, SearchLines(Picks(stimuli, ticks), done)),
                        Picks(stimuli, ticks), timing, ticks, done, trace, abort.value);
      return trace, done, closeLog, Aborted(abort.value);
    }
    if ticks(done).running {
      return trace, done, closeLog, StillRunning;
    }
    var acts, timeout;
    r, acts, closeLog, timeout := Teardown(recorder, r);
    PrefixAfter(trace, [], acts);
    if timeout.Some? {
      PrefixAfter(trace, acts, ToRecorderAll(CloseScript(closeLog)));
    }
    trace := trace + acts;
    ending := if timeout.Some? then Aborted(RecorderTimeout(timeout.value)) else Finished("Search Finished");
  }

  // ---- against the executor server ----

  /** What a running executor does for the first `k` trials of a block:
      for trial `n` it writes the number, pauses half a second, plays the
      executor's copy of the stimulus and pauses a second. */
  function BlockPlayed(stimuli: seq<string>, order: seq<nat>, k: nat): (effects: seq<Effect>)
    requires k <= |order| && k <= ULongLimit
    requires forall i :: 0 <= i < |order| ==> order[i] < |stimuli|
    ensures |effects| == 4 * k
  {
    if k == 0 then []
    else BlockPlayed(stimuli, order, k - 1) + TrialEffects(PiPath(stimuli[order[k - 1]]), k - 1)
  }

  /** What a running executor does for the first `k` iterations of a
      search, whose trial numbers start at 1. */
  function SearchPlayed(file: nat -> string, k: nat): (effects: seq<Effect>)
    requires k < ULongLimit
    ensures |effects| == 4 * k
  {
    if k == 0 then [] else SearchPlayed(file, k - 1) + TrialEffects(PiPath(file(k - 1)), k)
  }

  /** A running executor, started from `d`, after `i` trials of a block. */
  function BlockState(d: Device, stimuli: seq<string>, order: seq<nat>): nat -> Device
    requires forall j :: 0 <= j < |order| ==> order[j] < |stimuli|
  {
    (i: nat) => if i <= |order| && i <= ULongLimit then Device(d.effects + BlockPlayed(stimuli, order, i), true) else d
  }

  /** A running executor, started from `d`, after `i` iterations of a
      search. */
  function SearchState(d: Device, file: nat -> string): nat -> Device
  {
    (i: nat) => if i < ULongLimit then Device(d.effects + SearchPlayed(file, i), true) else d
  }

  /** Fed the trial lines of a block's first `k` trials, a running executor
      server stays up and has played them in order, when no executor copy
      of a stimulus has a space in its path. */
  lemma BlockLinesPlayed(d: Device, stimuli: seq<string>, order: seq<nat>, k: nat)
    requires d.up
    requires k <= |order| && k <= ULongLimit
    requires forall i :: 0 <= i < |order| ==> order[i] < |stimuli|
    requires forall i :: 0 <= i < |stimuli| ==> ' ' !in PiPath(stimuli[i])
    ensures Feed(Respond, d, BlockLines(stimuli, order, k)) == Device(d.effects + BlockPlayed(stimuli, order, k), true)
  {
    var at := BlockState(d, stimuli, order);
    forall i | 0 <= i < k
      ensures Respond(at(i), BlockLine(stimuli, order)(i)).0 == at(i + 1)
    {
      BlockTrialPlayed(d, stimuli, order, i);
    }
    assert d.effects + BlockPlayed(stimuli, order, 0) == d.effects;
    assert at(0) == d;
    FeedFollows(Respond, BlockLine(stimuli, order), k, at);
  }

  /** The step of `BlockLinesPlayed`: trial `i` adds its effects. */
  lemma BlockTrialPlayed(d: Device, stimuli: seq<string>, order: seq<nat>, i: nat)
    requires i < |order| && i < ULongLimit
    requires forall j :: 0 <= j < |order| ==> order[j] < |stimuli|
    requires forall j :: 0 <= j < |stimuli| ==> ' ' !in PiPath(stimuli[j])
    ensures Respond(BlockState(d, stimuli, order)(i), BlockLine(stimuli, order)(i)).0
      == BlockState(d, stimuli, order)(i + 1)
  {
    var path := PiPath(stimuli[order[i]]);
    var before := d.effects + BlockPlayed(stimuli, order, i);
    assert BlockState(d, stimuli, order)(i) == Device(before, true);
    assert BlockLine(stimuli, order)(i) == TrialLine(path, i);
    TrialAdvancesExecutor(Device(before, true), path, i);
    AppendAssoc(d.effects, BlockPlayed(stimuli, order, i), TrialEffects(path, i));
  }

  /** Fed the trial lines of a search's first `k` iterations, a running
      executor server stays up and has played them in order. */
  lemma SearchLinesPlayed(d: Device, file: nat -> string, k: nat)
    requires d.up
    requires k < ULongLimit
    requires forall j: nat :: j < k ==> ' ' !in PiPath(file(j))
    ensures Feed(Respond, d, SearchLines(file, k)) == Device(d.effects + SearchPlayed(file, k), true)
  {
    var at := SearchState(d, file);
    forall i | 0 <= i < k
      ensures Respond(at(i), SearchLine(file)(i)).0 == at(i + 1)
    {
      SearchTrialPlayed(d, file, i);
    }
    assert d.effects + SearchPlayed(file, 0) == d.effects;
    assert at(0) == d;
    FeedFollows(Respond, SearchLine(file), k, at);
  }

  /** The step of `SearchLinesPlayed`: iteration `i` adds its effects. */
  lemma SearchTrialPlayed(d: Device, file: nat -> string, i: nat)
    requires i + 1 < ULongLimit
    requires ' ' !in PiPath(file(i))
    ensures Respond(SearchState(d, file)(i), SearchLine(file)(i)).0 == SearchState(d, file)(i + 1)
  {
    var path := PiPath(file(i));
    var before := d.effects + SearchPlayed(file, i);
    assert SearchState(d, file)(i) == Device(before, true);
    assert SearchLine(file)(i) == TrialLine(path, i + 1);
    TrialAdvancesExecutor(Device(before, true), path, i + 1);
    AppendAssoc(d.effects, SearchPlayed(file, i), TrialEffects(path, i + 1));
  }

  /** A block run against an executor server that was up when the block
      began, with space-free executor paths, never raises an executor
      timeout: the server answers every trial line the block sends. */
  lemma RespondingBlockNoExecutorTimeout<P(!new)>(recorder: Peer<P>, cur: P, d: Device,
                                                   stimuli: seq<string>, order: seq<nat>, timing: Timing,
                                                   ticks: nat -> Tick, done: nat, trace: seq<Action>, a: Abort)
    requires d.up && |order| <= ULongLimit
    requires forall i :: 0 <= i < |order| ==> order[i] < |stimuli|
    requires forall i :: 0 <= i < |stimuli| ==> ' ' !in PiPath(stimuli[i])
    requires done < |order|
    requires BlockBroke(recorder, cur, Respond, Feed(Respond, d, BlockLines(stimuli, order, done)),
                        stimuli, order, timing, ticks, done, trace, a)
    ensures !a.ExecutorTimeout?
  {
    BlockLinesPlayed(d, stimuli, order, done);
    HandleTrialLine(PiPath(stimuli[order[done]]), done);
  }

  /** A search run against an executor server that was up when it began
      never raises an executor timeout while its trial numbers fit the
      serial format and the executor paths have no space. */
  lemma RespondingSearchNoExecutorTimeout<P(!new)>(recorder: Peer<P>, cur: P, d: Device,
                                                    file: nat -> string, timing: Timing, ticks: nat -> Tick,
                                                    done: nat, trace: seq<Action>, a: Abort)
    requires d.up && done + 1 < ULongLimit
    requires forall j: nat :: j <= done ==> ' ' !in PiPath(file(j))
    requires SearchBroke(recorder, cur, Respond, Feed(Respond, d, SearchLines(file, done)),
                         file, timing, ticks, done, trace, a)
    ensures !a.ExecutorTimeout?
  {
    SearchLinesPlayed(d, file, done);
    HandleTrialLine(PiPath(file(done)), done + 1);
  }

  // ---- controls ----

  /** `stop_button_cmd`: clear the run flag if a block has set one up (it
      is `None` before the first block). */
  function StopButton(flag: Option<bool>): (flag': Option<bool>)
    ensures flag'.Some? <==> flag.Some?
    ensures flag'.Some? ==> !flag'.value
  {
    if flag.Some? then Some(false) else None
  }

  /** `flip_repeat_stimulus`: toggle whether a search repeats its stimulus. */
  function FlipRepeat(repeat: bool): (repeat': bool)
    ensures repeat' != repeat
  {
    !repeat
  }

  /** The run flag at the check of iteration `k`, from the flag `start`
      that `start_block` set up and the stop presses: `pressed(k)` says the
      stop button was pressed after the check of iteration `k - 1` (after
      the start for `k == 0`). The history covers one run: a second
      `start_block` during the run, which the Start button allows, puts a
      new, set flag in place of this one, and that is not modelled here. */
  function FlagAt(start: Option<bool>, pressed: nat -> bool, k: nat): Option<bool>
  {
    var before := if k == 0 then start else FlagAt(start, pressed, k - 1);
    if pressed(k) then StopButton(before) else before
  }

  /** The worker's view of the flag is the flag the stop button drives. */
  ghost predicate FlagDriven(ticks: nat -> Tick, start: Option<bool>, pressed: nat -> bool)
  {
    forall k: nat :: ticks(k).running == (FlagAt(start, pressed, k) == Some(true))
  }

  /** Once pressed, the stop button keeps the flag clear at every later
      check. */
  lemma {:induction false} StopStays(start: Option<bool>, pressed: nat -> bool, k0: nat, k: nat)
    requires k0 <= k && pressed(k0)
    ensures FlagAt(start, pressed, k) != Some(true)
  {
    if k > k0 {
      StopStays(start, pressed, k0, k - 1);
    }
  }

  /** A stop press ends the worker's trials: the flag reads cleared from
      then on, so a loop that stops at the first cleared flag starts no
      trial at or after the press. */
  lemma StopHaltsTrials(ticks: nat -> Tick, start: Option<bool>, pressed: nat -> bool, k0: nat, done: nat)
    requires FlagDriven(ticks, start, pressed) && pressed(k0)
    requires forall k: nat :: !ticks(k).running ==> done <= k
    ensures forall k: nat :: k0 <= k ==> !ticks(k).running
    ensures done <= k0
  {
    forall k: nat | k0 <= k
      ensures !ticks(k).running
    {
      StopStays(start, pressed, k0, k);
    }
    assert !ticks(k0).running;
  }

  /** The repeat toggle at the check of iteration `k`, from its value
      `start` before the first iteration and the presses of the repeat
      button: `flipped(k)` says it was pressed after the check of iteration
      `k - 1`. */
  function RepeatAt(start: bool, flipped: nat -> bool, k: nat): bool
  {
    var before := if k == 0 then start else RepeatAt(start, flipped, k - 1);
    if flipped(k) then FlipRepeat(before) else before
  }

  /** The worker's view of the toggle is the toggle the button drives. */
  ghost predicate RepeatDriven(ticks: nat -> Tick, start: bool, flipped: nat -> bool)
  {
    forall k: nat :: ticks(k).repeat == RepeatAt(start, flipped, k)
  }

  /** Without further presses the toggle keeps its value. */
  lemma {:induction false} RepeatKept(start: bool, flipped: nat -> bool, i: nat, k: nat)
    requires i <= k
    requires forall j: nat :: i < j <= k ==> !flipped(j)
    ensures RepeatAt(start, flipped, k) == RepeatAt(start, flipped, i)
  {
    if k > i {
      RepeatKept(start, flipped, i, k - 1);
    }
  }

  /** A search whose repeat button turned repeating on before iteration
      `i + 1`, and was not pressed again up to iteration `k`, plays in
      iterations `i + 1` to `k` the stimulus of iteration `i`. */
  lemma RepeatButtonHoldsStimulus(stimuli: seq<string>, ticks: nat -> Tick, start: bool, flipped: nat -> bool,
                                  i: nat, k: nat)
    requires |stimuli| > 0 && i <= k && RepeatDriven(ticks, start, flipped)
    requires RepeatAt(start, flipped, i + 1)
    requires forall j: nat :: i + 1 < j <= k ==> !flipped(j)
    ensures SearchFile(stimuli, ticks, k) == SearchFile(stimuli, ticks, i)
  {
    forall j: nat | i < j <= k
      ensures ticks(j).repeat
    {
      RepeatKept(start, flipped, i + 1, j);
    }
    SearchHoldsStimulus(stimuli, ticks, i, k);
  }
}

=== FILE: server.dfy ===
/** The trial executor on the Raspberry Pi (`rig_state_machine`): a
    request/reply server that parses each command line, dispatches the verb
    through a fixed table to a handler, and replies
    `"<response> from <port>"`. Any exception ends the process, so a bad
    request gets no reply and no later request is served. Hardware actions
    (GPIO mode, the serial write of the trial number, the sound playback) and
    the pauses are recorded as effects. */
module Server {
  import opened Outcomes
  import opened Text
  import opened CommandLine

  /** The port the server binds and names in its replies. */
  const Port := "5558"

  /** `struct.pack('L', n)` packs a native unsigned long: four bytes on the
      Pi's 32-bit ARM, little-endian, so only `0 <= n < 2^32` fits. */
  const ULongLimit := 0x1_0000_0000

  /** An action on the Pi's hardware, or a pause, in the order it happens. */
  datatype Effect =
    | BoardMode                       // GPIO.setmode(GPIO.BCM)
    | SerialWrite(bytes: seq<int>)    // so.write_number(n)
    | Pause(ms: nat)                  // time.sleep
    | Play(path: string)              // wp.play_file(path)

  /** The handlers of `command_functions`. */
  datatype Handler = TrialHandler | InitHandler

  /** Why handling a request raised. */
  datatype Fault =
    | Malformed(tokens: nat)          // parse_command's assertion
    | UnknownVerb(verb: string)       // KeyError in command_functions
    | MissingKey(key: string)         // KeyError in trial_pars
    | NotANumber(text: string)        // ValueError from float()
    | PackRange(n: int)               // struct.error from struct.pack
    | ArityMismatch(verb: string)     // TypeError calling the handler

  /** `command_functions[verb]`. */
  function Lookup(verb: string): (h: Option<Handler>)
    ensures h == Some(TrialHandler) <==> verb == "trial"
    ensures h == Some(InitHandler) <==> verb == "init"
    ensures h.None? <==> verb != "trial" && verb != "init"
  {
    if verb == "trial" then Some(TrialHandler)
    else if verb == "init" then Some(InitHandler)
    else None
  }

  /** The bytes of `struct.pack('L', n)`, least significant first. */
  function PackULong(n: int): (r: Result<seq<int>, Fault>)
    ensures r.Ok? <==> 0 <= n < ULongLimit
    ensures r.Err? ==> r.error == PackRange(n)
    ensures r.Ok? ==> |r.value| == 4 && forall i :: 0 <= i < 4 ==> 0 <= r.value[i] < 256
  {
    if 0 <= n < ULongLimit then
      var q1 := n / 0x100;
      var q2 := q1 / 0x100;
      Ok([n % 0x100, q1 % 0x100, q2 % 0x100, q2 / 0x100])
    else Err(PackRange(n))
  }

  /** The number a receiver reads back from the four bytes. */
  function UnpackULong(bytes: seq<int>): int
    requires |bytes| == 4
  {
    bytes[0] + 0x100 * bytes[1] + 0x1_0000 * bytes[2] + 0x100_0000 * bytes[3]
  }

  /** The serial receiver reads back exactly the number written. */
  lemma PackRoundTrip(n: int)
    requires 0 <= n < ULongLimit
    ensures UnpackULong(PackULong(n).value) == n
  {
    var q1 := n / 0x100;
    var q2 := q1 / 0x100;
    assert n == n % 0x100 + 0x100 * q1;
    assert q1 == q1 % 0x100 + 0x100 * q2;
    assert q2 == q2 % 0x100 + 0x100 * (q2 / 0x100);
  }

  /** `run_trial(trial_pars)`: read `stim_file`, then `number` as
      `int(float(...))`, then write the number to the serial line, pause half
      a second, and play the file. Every parameter is read before any effect,
      so a failure leaves no effect behind. */
  function RunTrial(params: map<string, string>): (r: Result<(string, seq<Effect>), Fault>)
    ensures "stim_file" !in params ==> r == Err(MissingKey("stim_file"))
    ensures "stim_file" in params && "number" !in params ==> r == Err(MissingKey("number"))
    ensures r.Ok? <==>
      "stim_file" in params && "number" in params && ParseNumber(params["number"]).Some?
      && 0 <= ParseNumber(params["number"]).value < ULongLimit
    ensures r.Ok? ==>
      var n := ParseNumber(params["number"]).value;
      r.value == ("played", [SerialWrite(PackULong(n).value), Pause(500), Play(params["stim_file"])])
  {
    if "stim_file" !in params then Err(MissingKey("stim_file"))
    else
      var path := params["stim_file"];
      if "number" !in params then Err(MissingKey("number"))
      else
        match ParseNumber(params["number"])
        case None => Err(NotANumber(params["number"]))
        case Some(n) =>
          var bytes :- PackULong(n);
          Ok(("played", [SerialWrite(bytes), Pause(500), Play(path)]))
  }

  /** `init_board()`: set the GPIO numbering mode and answer `ok`. */
  function InitBoard(): (r: (string, seq<Effect>))
    ensures r.0 == "ok" && r.1 == [BoardMode]
  {
    ("ok", [BoardMode])
  }

  /** `execute_command` as written, the dispatch the server runs: the
      handler is always called with the parameters, which `init_board` does
      not accept, so only `trial` can succeed. */
  function ExecuteAsWritten(cmd: Command): (r: Result<(string, seq<Effect>), Fault>)
    ensures r.Ok? ==> cmd.verb == "trial"
    ensures cmd.verb == "trial" ==> r == RunTrial(cmd.params)
    ensures cmd.verb == "init" ==> r == Err(ArityMismatch("init"))
    ensures cmd.verb != "trial" && cmd.verb != "init" ==> r == Err(UnknownVerb(cmd.verb))
  {
    match Lookup(cmd.verb)
    case None => Err(UnknownVerb(cmd.verb))
    case Some(TrialHandler) => RunTrial(cmd.params)
    case Some(InitHandler) => Err(ArityMismatch(cmd.verb))
  }

  /** The `init` command cannot succeed as written, whatever its parameters. */
  lemma InitAlwaysRaises(params: map<string, string>)
    ensures ExecuteAsWritten(Command("init", params)) == Err(ArityMismatch("init"))
  {
  }

  /** The corrected dispatch, `execute_command` as evidently intended: the
      handler registered for the verb runs, `init_board` without the
      parameters; an unregistered verb fails the lookup and runs nothing.
      The server loop below runs the written dispatch, not this one. */
  function Execute(cmd: Command): (r: Result<(string, seq<Effect>), Fault>)
    ensures Lookup(cmd.verb).None? ==> r == Err(UnknownVerb(cmd.verb))
    ensures Lookup(cmd.verb) == Some(TrialHandler) ==> r == RunTrial(cmd.params)
    ensures Lookup(cmd.verb) == Some(InitHandler) ==> r == Ok(InitBoard())
  {
    match Lookup(cmd.verb)
    case None => Err(UnknownVerb(cmd.verb))
    case Some(TrialHandler) => RunTrial(cmd.params)
    case Some(InitHandler) => Ok(InitBoard())
  }

  /** The intended dispatch agrees with the written one on every command
      but `init`, and `init` now answers `ok`. */
  lemma ExecuteCorrectsInit(cmd: Command)
    ensures cmd.verb != "init" ==> Execute(cmd) == ExecuteAsWritten(cmd)
    ensures cmd.verb == "init" ==> Execute(cmd) == Ok(("ok", [BoardMode]))
  {
  }

  /** The reply text: `"%s from %s" % (response, port)`. */
  function Reply(response: string): (text: string)
    ensures |text| == |response| + 10
    ensures text[..|response|] == response && text[|response|..] == " from 5558"
  {
    response + " from " + Port
  }

  /** One request: parse, then dispatch as written. */
  function Handle(line: string): (r: Result<(string, seq<Effect>), Fault>)
    ensures ParseCommand(line).Err? ==> r == Err(Malformed(Count(line, ' ') + 1))
    ensures ParseCommand(line).Ok? ==> r == ExecuteAsWritten(ParseCommand(line).value)
  {
    match ParseCommand(line)
    case Err(EvenTokenCount(n)) => Err(Malformed(n))
    case Ok(cmd) => ExecuteAsWritten(cmd)
  }

  /** Every successful request is a trial: the server answers nothing but
      `played`. */
  lemma {:induction false} OnlyTrialsSucceed(line: string)
    ensures Handle(line).Ok? ==>
      ParseCommand(line).Ok? && ParseCommand(line).value.verb == "trial"
      && Handle(line).value.0 == "played"
  {
    match ParseCommand(line)
    case Err(_) =>
    case Ok(cmd) =>
      if Handle(line).Ok? {
        assert Handle(line) == RunTrial(cmd.params);
      }
  }

  /** The Pi as the session controller sees it: its effects so far, and
      whether the process is still running. */
  datatype Device = Device(effects: seq<Effect>, up: bool)

  /** Start-up: `init_board()` runs once before the server loop. */
  function Boot(): (d: Device)
    ensures d.up && d.effects == [BoardMode]
  {
    Device(InitBoard().1, true)
  }

  /** One pass of the server loop as a peer step: a running server handles
      the line, pauses a second and replies; a failure ends the process
      without a reply, and a dead process never replies. */
  function Respond(d: Device, line: string): (r: (Device, Option<string>))
    ensures r.1.Some? <==> d.up && Handle(line).Ok?
    ensures r.1.Some? ==>
      r.1.value == Reply(Handle(line).value.0)
      && r.0 == Device(d.effects + Handle(line).value.1 + [Pause(1000)], true)
    ensures r.1.None? ==> r.0 == Device(d.effects, false)
  {
    if !d.up then (d, None)
    else
      match Handle(line)
      case Ok((response, effects)) => (Device(d.effects + effects + [Pause(1000)], true), Some(Reply(response)))
      case Err(_) => (Device(d.effects, false), None)
  }

  /** A trial line for a path without spaces and a number that fits the
      serial format makes the server write the number, pause, play exactly
      that path and answer `played from 5558`. */
  lemma HandleTrialLine(path: string, number: int)
    requires ' ' !in path && 0 <= number < ULongLimit
    ensures Handle(TrialLine(path, number))
      == Ok(("played", [SerialWrite(PackULong(number).value), Pause(500), Play(path)]))
  {
    TrialLineRoundTrip(path, number);
    IntToStringParses(number);
  }

  /** The request `init` ends a running server without a reply, and a
      later trial is never answered. */
  lemma InitKillsServer(d: Device, later: string)
    requires d.up
    ensures Respond(d, "init") == (Device(d.effects, false), None)
    ensures Respond(Respond(d, "init").0, later).1.None?
  {
    SplitWithoutSeparator("init", ' ');
    assert ParseCommand("init") == Ok(Command("init", map[]));
  }

  /** A negative trial number is not packable: the server dies on it. */
  lemma NegativeTrialNumberFails(path: string, number: int)
    requires ' ' !in path && -FloatExact <= number < 0
    ensures Handle(TrialLine(path, number)) == Err(PackRange(number))
  {
    TrialLineRoundTrip(path, number);
    IntToStringParses(number);
  }

  /** What the server loop does, in order. */
  datatype ServerEvent = Received(line: string) | Replied(text: string) | Crashed(fault: Fault)

  /** How the loop handles one line: `Handle`, or any other handler with
      the same shape. */
  type Handling = string -> Result<(string, seq<Effect>), Fault>

  /** The effects of serving `reqs`, all of which succeed. */
  function EffectsOf(handle: Handling, reqs: seq<string>): seq<Effect>
    requires forall i :: 0 <= i < |reqs| ==> handle(reqs[i]).Ok?
  {
    if |reqs| == 0 then []
    else EffectsOf(handle, reqs[..|reqs| - 1]) + handle(reqs[|reqs| - 1]).value.1 + [Pause(1000)]
  }

  /** The loop's events while serving `reqs`, all of which succeed. */
  function Dialogue(handle: Handling, reqs: seq<string>): seq<ServerEvent>
    requires forall i :: 0 <= i < |reqs| ==> handle(reqs[i]).Ok?
  {
    if |reqs| == 0 then []
    else
      var last := reqs[|reqs| - 1];
      Dialogue(handle, reqs[..|reqs| - 1]) + [Received(last), Replied(Reply(handle(last).value.0))]
  }

  /** Receiving and replying strictly alternate, one reply per request, in order. */
  lemma {:induction false} DialogueAlternates(handle: Handling, reqs: seq<string>)
    requires forall i :: 0 <= i < |reqs| ==> handle(reqs[i]).Ok?
    ensures |Dialogue(handle, reqs)| == 2 * |reqs|
    ensures forall i :: 0 <= i < |reqs| ==>
      Dialogue(handle, reqs)[2 * i] == Received(reqs[i])
      && Dialogue(handle, reqs)[2 * i + 1] == Replied(Reply(handle(reqs[i]).value.0))
  {
    if |reqs| > 0 {
      var front := reqs[..|reqs| - 1];
      DialogueAlternates(handle, front);
      forall i | 0 <= i < |reqs|
        ensures Dialogue(handle, reqs)[2 * i] == Received(reqs[i])
        ensures Dialogue(handle, reqs)[2 * i + 1] == Replied(Reply(handle(reqs[i]).value.0))
      {
        if i < |front| {
          assert reqs[i] == front[i];
        }
      }
    }
  }

  /** The server loop over a sequence of requests, after start-up: it
      alternates receiving and replying, one reply per request in order,
      until the first request whose handling raises; that one is received
      and the process ends, so no later request is served. */
  method Serve(handle: Handling, requests: seq<string>) returns (d: Device, trace: seq<ServerEvent>, served: nat)
    ensures served <= |requests|
    ensures forall i :: 0 <= i < served ==> handle(requests[i]).Ok?
    ensures d.up <==> served == |requests|
    ensures d.up ==> trace == Dialogue(handle, requests)
    ensures !d.up ==>
      handle(requests[served]).Err?
      && trace == Dialogue(handle, requests[..served]) + [Received(requests[served]), Crashed(handle(requests[served]).error)]
    ensures d.effects == [BoardMode] + EffectsOf(handle, requests[..served])
  {
    d := Boot();
    trace := [];
    served := 0;
    while served < |requests| && d.up
      invariant served <= |requests|
      invariant forall i :: 0 <= i < served ==> handle(requests[i]).Ok?
      invariant d.up ==> trace == Dialogue(handle, requests[..served])
      invariant !d.up ==>
        served < |requests| && handle(requests[served]).Err?
        && trace == Dialogue(handle, requests[..served]) + [Received(requests[served]), Crashed(handle(requests[served]).error)]
      invariant d.effects == [BoardMode] + EffectsOf(handle, requests[..served])
      decreases |requests| - served, if d.up then 1 else 0
    {
      var line := requests[served];
      var h := handle(line);
      if h.Ok? {
        assert requests[..served + 1][..served] == requests[..served];
        d := Device(d.effects + h.value.1 + [Pause(1000)], true);
        trace := trace + [Received(line), Replied(Reply(h.value.0))];
        served := served + 1;
      } else {
        d := Device(d.effects, false);
        trace := trace + [Received(line), Crashed(h.error)];
      }
    }
    assert d.up ==> requests[..served] == requests;
  }

  /** A request the server answers is a trial, answered `played from 5558`. */
  lemma ServedRequestIsTrial(line: string)
    requires Handle(line).Ok?
    ensures ParseCommand(line).Ok? && ParseCommand(line).value.verb == "trial"
    ensures Reply(Handle(line).value.0) == "played from 5558"
  {
    OnlyTrialsSucceed(line);
    assert Reply("played") == "played from 5558";
  }

  /** The rig's server loop, handling each line with `Handle`: when every
      request is served, the replies are exactly the handlers' responses in
      order, each tagged with the port, and since only trials can succeed
      as written, every request was a trial answered `played from 5558`. */
  method ServeRig(requests: seq<string>) returns (d: Device, trace: seq<ServerEvent>, served: nat)
    ensures served <= |requests|
    ensures d.up <==> served == |requests|
    ensures !d.up ==> Handle(requests[served]).Err?
    ensures d.up ==>
      |trace| == 2 * |requests|
      && forall i :: 0 <= i < |requests| ==>
        Handle(requests[i]).Ok?
        && trace[2 * i] == Received(requests[i])
        && trace[2 * i + 1] == Replied(Reply(Handle(requests[i]).value.0))
    ensures d.up ==> forall i :: 0 <= i < |requests| ==>
      ParseCommand(requests[i]).Ok? && ParseCommand(requests[i]).value.verb == "trial"
      && trace[2 * i + 1] == Replied("played from 5558")
  {
    d, trace, served := Serve(Handle, requests);
    if d.up {
      DialogueAlternates(Handle, requests);
      forall i | 0 <= i < |requests|
        ensures ParseCommand(requests[i]).Ok? && ParseCommand(requests[i]).value.verb == "trial"
        ensures Reply(Handle(requests[i]).value.0) == "played from 5558"
      {
        ServedRequestIsTrial(requests[i]);
      }
    }
  }
}

=== FILE: text.dfy ===
/** The text operations the rig's command protocol relies on, with Python's
    semantics: `str.split` with an explicit separator, `str.join`, the tail
    of `os.path.split`, `str(int)` and `int(float(s))`. */
module Text {
  import opened Outcomes

  /** Number of occurrences of `c` in `s`. */
  function Count(s: string, c: char): nat
  {
    if |s| == 0 then 0 else (if s[0] == c then 1 else 0) + Count(s[1..], c)
  }

  lemma {:induction false} CountConcat(a: string, b: string, c: char)
    ensures Count(a + b, c) == Count(a, c) + Count(b, c)
  {
    if |a| == 0 {
      assert a + b == b;
    } else {
      assert (a + b)[1..] == a[1..] + b;
      CountConcat(a[1..], b, c);
    }
  }

  lemma {:induction false} CountAbsent(s: string, c: char)
    ensures c !in s <==> Count(s, c) == 0
  {
    if |s| > 0 {
      CountAbsent(s[1..], c);
      assert c in s <==> s[0] == c || c in s[1..];
    }
  }

  /** `s.split(sep)`: the maximal runs of `s` between occurrences of `sep`,
      empty runs included, so there is always one more part than separators.
      The first part is the prefix of `s` up to the first separator. */
  function Split(s: string, sep: char): (parts: seq<string>)
    ensures |parts| == Count(s, sep) + 1
    ensures forall i :: 0 <= i < |parts| ==> sep !in parts[i]
    ensures parts[0] <= s
    ensures |parts[0]| < |s| ==> s[|parts[0]|] == sep
  {
    if |s| == 0 then [""]
    else
      var rest := Split(s[1..], sep);
      if s[0] == sep then [""] + rest
      else [[s[0]] + rest[0]] + rest[1..]
  }

  /** `sep.join(parts)`. */
  function Join(parts: seq<string>, sep: char): string
  {
    if |parts| == 0 then ""
    else if |parts| == 1 then parts[0]
    else parts[0] + [sep] + Join(parts[1..], sep)
  }

  lemma {:induction false} SplitWithoutSeparator(a: string, sep: char)
    requires sep !in a
    ensures Split(a, sep) == [a]
  {
    if |a| > 0 {
      SplitWithoutSeparator(a[1..], sep);
      assert [a[0]] + a[1..] == a;
    }
  }

  lemma {:induction false} SplitAtFirstSeparator(a: string, b: string, sep: char)
    requires sep !in a
    ensures Split(a + [sep] + b, sep) == [a] + Split(b, sep)
  {
    if |a| == 0 {
      assert a + [sep] + b == [sep] + b;
      assert ([sep] + b)[1..] == b;
    } else {
      var s := a + [sep] + b;
      assert s[1..] == a[1..] + [sep] + b;
      SplitAtFirstSeparator(a[1..], b, sep);
      assert [a[0]] + a[1..] == a;
    }
  }

  /** Splitting a joined list recovers the list, provided no part contains
      the separator. */
  lemma {:induction false} SplitJoin(parts: seq<string>, sep: char)
    requires |parts| >= 1
    requires forall i :: 0 <= i < |parts| ==> sep !in parts[i]
    ensures Split(Join(parts, sep), sep) == parts
  {
    if |parts| == 1 {
      SplitWithoutSeparator(parts[0], sep);
    } else {
      SplitJoin(parts[1..], sep);
      SplitAtFirstSeparator(parts[0], Join(parts[1..], sep), sep);
      assert [parts[0]] + parts[1..] == parts;
    }
  }

  /** Joining the parts of a split recovers the text. */
  lemma {:induction false} JoinSplit(s: string, sep: char)
    ensures Join(Split(s, sep), sep) == s
  {
    if |s| > 0 {
      var rest := Split(s[1..], sep);
      JoinSplit(s[1..], sep);
      if s[0] == sep {
        assert ([""] + rest)[1..] == rest;
        assert [s[0]] + s[1..] == s;
      } else if |rest| == 1 {
        assert [s[0]] + s[1..] == s;
      } else {
        var parts := [[s[0]] + rest[0]] + rest[1..];
        assert parts[1..] == rest[1..];
        assert Join(rest, sep) == rest[0] + [sep] + Join(rest[1..], sep);
        assert [s[0]] + s[1..] == s;
      }
    }
  }

  /** The file-name part of `os.path.split(path)`: what follows the last
      `/`, or the whole path when there is none. */
  function Basename(path: string): string
  {
    if |path| == 0 || path[|path| - 1] == '/' then ""
    else Basename(path[..|path| - 1]) + [path[|path| - 1]]
  }

  /** The file name is the longest suffix of the path without a `/`. */
  lemma {:induction false} BasenameIsLastComponent(path: string)
    ensures var name := Basename(path);
      '/' !in name
      && |name| <= |path| && path[|path| - |name|..] == name
      && (|name| < |path| ==> path[|path| - |name| - 1] == '/')
  {
    if |path| > 0 && path[|path| - 1] != '/' {
      var front := path[..|path| - 1];
      BasenameIsLastComponent(front);
      var name := Basename(path);
      assert name == Basename(front) + [path[|path| - 1]];
      assert path[|path| - |name|..] == front[|front| - |Basename(front)|..] + [path[|path| - 1]];
    }
  }

  /** The file name of a directory joined with a plain name is that name. */
  lemma {:induction false} BasenameAfterDirectory(dir: string, name: string)
    requires |dir| > 0 && dir[|dir| - 1] == '/' && '/' !in name
    ensures Basename(dir + name) == name
  {
    if |name| == 0 {
      assert dir + name == dir;
    } else {
      var front := name[..|name| - 1];
      BasenameAfterDirectory(dir, front);
      assert (dir + name)[..|dir + name| - 1] == dir + front;
      assert front + [name[|name| - 1]] == name;
    }
  }

  predicate IsDigit(c: char)
  {
    '0' <= c <= '9'
  }

  predicate AllDigits(s: string)
  {
    forall i :: 0 <= i < |s| ==> IsDigit(s[i])
  }

  function DigitChar(d: nat): (c: char)
    requires d < 10
    ensures IsDigit(c) && c as int - '0' as int == d
  {
    ('0' as int + d) as char
  }

  /** The decimal value of a string of digits, read most significant first. */
  function DigitsValue(s: string): nat
    requires AllDigits(s)
  {
    if |s| == 0 then 0
    else DigitsValue(s[..|s| - 1]) * 10 + (s[|s| - 1] as int - '0' as int)
  }

  /** The decimal digits of `n`, most significant first, without leading zeros. */
  function NatDigits(n: nat): (s: string)
    ensures |s| >= 1 && AllDigits(s)
    ensures s[0] == '0' ==> n == 0
  {
    if n < 10 then [DigitChar(n)] else NatDigits(n / 10) + [DigitChar(n % 10)]
  }

  lemma {:induction false} DigitsValueOfNatDigits(n: nat)
    ensures DigitsValue(NatDigits(n)) == n
  {
    var s := NatDigits(n);
    if n >= 10 {
      assert s[..|s| - 1] == NatDigits(n / 10);
      DigitsValueOfNatDigits(n / 10);
    }
  }

  /** Python's `str(n)` for an integer. */
  function IntToString(n: int): (s: string)
    ensures |s| >= 1
    ensures ' ' !in s && '.' !in s && '/' !in s && '=' !in s
  {
    if n < 0 then "-" + NatDigits(-n) else NatDigits(n)
  }

  /** Python's `int(float(s))` for the decimal forms the protocol carries: an
      optional sign, digits, and an optional fraction after one `.`, with at
      least one digit in all. The fraction is truncated toward zero; anything
      else is a `ValueError` (`None`). */
  function ParseNumber(s: string): (r: Option<int>)
    ensures r.Some? ==> |s| >= 1
    ensures r.Some? && s[0] == '-' ==> r.value <= 0
    ensures r.Some? && s[0] != '-' ==> r.value >= 0
  {
    var signed := |s| > 0 && (s[0] == '-' || s[0] == '+');
    var body := if signed then s[1..] else s;
    var parts := Split(body, '.');
    if |parts| > 2 then None
    else
      var whole := parts[0];
      var fraction := if |parts| == 2 then parts[1] else "";
      if AllDigits(whole) && AllDigits(fraction) && |whole| + |fraction| > 0 then
        var v: int := DigitsValue(whole);
        Some(if signed && s[0] == '-' then -v else v)
      else None
  }

  lemma {:induction false} DigitsAreNotPunctuation(s: string)
    requires AllDigits(s)
    ensures '.' !in s && ' ' !in s && '-' !in s && '+' !in s
  {
  }

  /** A decimal body splits at its point into the whole and fractional digits. */
  lemma {:induction false} DecimalParts(body: string, whole: string, fraction: string)
    requires AllDigits(whole) && AllDigits(fraction)
    requires body == whole || body == whole + "." + fraction
    ensures Split(body, '.') == if body == whole then [whole] else [whole, fraction]
  {
    DigitsAreNotPunctuation(whole);
    DigitsAreNotPunctuation(fraction);
    if body == whole {
      SplitWithoutSeparator(whole, '.');
    } else {
      SplitAtFirstSeparator(whole, fraction, '.');
      SplitWithoutSeparator(fraction, '.');
    }
  }

  /** ParseNumber reads an unsigned decimal body as its whole digits. */
  lemma {:induction false} ParseUnsigned(body: string, whole: string, fraction: string)
    requires AllDigits(whole) && AllDigits(fraction) && |whole| > 0
    requires body == whole || body == whole + "." + fraction
    ensures ParseNumber(body) == Some(DigitsValue(whole))
  {
    DecimalParts(body, whole, fraction);
    assert IsDigit(body[0]) by {
      assert body[0] == whole[0];
    }
  }

  /** ParseNumber reads `-` and a decimal body as the negated whole digits. */
  lemma {:induction false} ParseNegative(body: string, whole: string, fraction: string)
    requires AllDigits(whole) && AllDigits(fraction) && |whole| > 0
    requires body == whole || body == whole + "." + fraction
    ensures ParseNumber("-" + body) == Some(-(DigitsValue(whole) as int))
  {
    DecimalParts(body, whole, fraction);
    assert ("-" + body)[1..] == body;
  }

  /** 2^53: every integer of at most this magnitude is exactly a double, so
      `float` does not round it. */
  const FloatExact: int := 0x20_0000_0000_0000

  /** What the server reads back is the number the client wrote:
      `int(float(str(n))) == n` for every `n` a double holds exactly. */
  lemma {:induction false} IntToStringParses(n: int)
    requires -FloatExact <= n <= FloatExact
    ensures ParseNumber(IntToString(n)) == Some(n)
  {
    var m := if n < 0 then -n else n;
    DigitsValueOfNatDigits(m);
    if n < 0 {
      ParseNegative(NatDigits(m), NatDigits(m), "");
    } else {
      ParseUnsigned(NatDigits(m), NatDigits(m), "");
    }
  }
}

=== FILE: trial_order.dfy ===
/** The order of a block's trials: every stimulus index `n_repeats` times
    (`np.tile(np.arange(n), n_repeats)`), then shuffled in place
    (`np.random.shuffle`). The random draws are an oracle. */
module TrialOrder {
  import opened Outcomes

  /** `np.arange(n)`. */
  function Range(n: nat): (r: seq<nat>)
    ensures |r| == n
    ensures forall i :: 0 <= i < n ==> r[i] == i
  {
    if n == 0 then [] else Range(n - 1) + [n - 1]
  }

  /** Every index below `n` occurs once in `np.arange(n)`, and nothing else does. */
  lemma {:induction false} RangeCounts(n: nat)
    ensures forall k: nat :: multiset(Range(n))[k] == if k < n then 1 else 0
  {
    if n == 0 {
      assert multiset(Range(n)) == multiset{};
    } else {
      var last: nat := n - 1;
      RangeCounts(last);
      assert multiset(Range(n)) == multiset(Range(last)) + multiset{last};
      forall k: nat ensures multiset(Range(n))[k] == if k < n then 1 else 0 {
        assert multiset(Range(last))[k] == if k < last then 1 else 0;
      }
    }
  }

  /** `np.tile(np.arange(n), reps)`: `reps` copies of `0, ..., n - 1` in a row. */
  function Tile(n: nat, reps: nat): (r: seq<nat>)
    ensures |r| == n * reps
    ensures forall i :: 0 <= i < |r| ==> r[i] < n
  {
    if reps == 0 then [] else Tile(n, reps - 1) + Range(n)
  }

  /** Every index below `n` occurs exactly `reps` times in the tiled order. */
  lemma {:induction false} TileCounts(n: nat, reps: nat)
    ensures forall k: nat :: multiset(Tile(n, reps))[k] == if k < n then reps else 0
  {
    if reps > 0 {
      TileCounts(n, reps - 1);
      RangeCounts(n);
      assert multiset(Tile(n, reps)) == multiset(Tile(n, reps - 1)) + multiset(Range(n));
    }
  }

  /** Exchanging two elements keeps the multiset. */
  lemma SwapKeepsElements(s: seq<nat>, i: nat, j: nat)
    requires i < |s| && j < |s|
    ensures multiset(s[i := s[j]][j := s[i]]) == multiset(s)
  {
    if i != j {
      var t := s[i := s[j]][j := s[i]];
      assert multiset(s[i := s[j]]) == multiset(s) - multiset{s[i]} + multiset{s[j]};
      assert multiset(t) == multiset(s[i := s[j]]) - multiset{s[j]} + multiset{s[i]};
    }
  }

  /** `np.random.shuffle(xs)`: for `i` from the last index down to 1, swap
      element `i` with element `j`, a draw from `0..i`; here
      `j = draws(i) % (i + 1)`. */
  method Shuffle(xs: seq<nat>, draws: nat -> nat) returns (ys: seq<nat>)
    ensures |ys| == |xs|
    ensures multiset(ys) == multiset(xs)
  {
    ys := xs;
    var i := |ys|;
    while i > 1
      invariant 0 <= i <= |ys| == |xs|
      invariant multiset(ys) == multiset(xs)
    {
      i := i - 1;
      var j := draws(i) % (i + 1);
      SwapKeepsElements(ys, i, j);
      ys := ys[i := ys[j]][j := ys[i]];
    }
  }

  /** `np.tile` raises on a negative repeat count only when there is
      something to repeat: tiling an empty array gives an empty array. */
  predicate TileRaises(n: nat, reps: int)
  {
    reps < 0 && n > 0
  }

  /** The block's stimulus order from `n` stimuli and `reps` repeats;
      `None` when `np.tile` raises. */
  method BlockOrder(n: nat, reps: int, draws: nat -> nat) returns (order: Option<seq<nat>>)
    ensures order.None? <==> reps < 0 && n > 0
    ensures order.Some? ==> |order.value| == n * reps
    ensures order.Some? ==> forall i :: 0 <= i < |order.value| ==> order.value[i] < n
    ensures order.Some? ==> forall k: nat :: multiset(order.value)[k] == if k < n then reps else 0
  {
    if reps < 0 {
      if n > 0 {
        return None;
      }
      return Some([]);
    }
    var tiled := Tile(n, reps);
    TileCounts(n, reps);
    var shuffled := Shuffle(tiled, draws);
    forall i | 0 <= i < |shuffled|
      ensures shuffled[i] < n
    {
      assert shuffled[i] in multiset(tiled);
    }
    order := Some(shuffled);
  }
}
